=== FILE: README.md ===
# LLM-Thinking-Popup, modelled in Dafny

LLM-Thinking-Popup is a browser extension. It watches a ChatGPT or Gemini page and, while
the assistant is "thinking", it opens an overlay with chess puzzles or a short video. It keeps
a daily-puzzle record, a streak and session statistics in the extension's local storage area,
and two mode toggles in the synced area. This project models its three stateful parts as Dafny
classes whose methods change their fields and the storage areas in place:

- `storage.dfy`, module `Storage`. The two storage areas are `Store` objects holding a map from
  the extension's keys to values (booleans, numbers, dates, ids). Dates are UTC day numbers,
  and `DayOf(ms)` is the day that `toISOString()` names.
- `renderer.dfy`, module `Renderer`. The class `OverlayManager` covers:
  - showing and hiding the single overlay;
  - the puzzle queue with the daily puzzle first and the fallback position;
  - range-checked navigation;
  - matching the player's moves, one at a time, against the solution;
  - the opponent's replies, hints and the solved handler;
  - the daily-solved record, the streak rule and the session statistics.

  The pure functions beside the class (`LoadedQueue`, `StreakRecord`, `SessionStatsUpdate`, ...)
  state what those updates compute. The lemmas relate them over several calls: streaks over
  consecutive days, and totals over many sessions.
- `detector.dfy`, module `Detector`. The class `StateDetector` covers:
  - the thinking edge detector, which starts the overlay on a change to thinking and hides it
    on a change back;
  - the 2000 ms debounce and the first-run mode choice;
  - the video streak and the teardown.

  The detector calls the same `OverlayManager` that the page holds, and both share the local area.
- `popup.dfy`, module `Popup`. The class `SettingsPanel` covers:
  - loading the toggles, with chess as the first-run default;
  - the two mutually exclusive toggles;
  - the reset of the daily record;
  - the "solved today" status line.

  Lemmas tie the popup to the other two parts. The saved toggles decide the mode that the
  detector opens. A reset puts the daily puzzle back in the queue. A solved daily puzzle shows
  as solved for that day only.

Events that the browser delivers later are separate steps:
- the removal timer of `hide` is `OnHideTimer`;
- the opponent's reply timer is `MakeOpponentMove`;
- the auto-advance timer is `OnAutoAdvance`;
- each observer or polling tick is one `CheckState`.

A method that schedules one of these steps returns which one. Each asynchronous handler runs
as one atomic step, with one exception: the statistics save that `hide` starts without waiting
for it is split into its start (`BeginSaveSessionStats`, which takes the guard and the duration
at once) and its end (`FinishSaveSessionStats`, which reads the solve count when it writes).
When `show` hides the old mode, that end comes after the new mode has been rendered. Answers from the puzzle service arrive as parameters (`Fetch`,
`DailyFetch`). The rules engine's verdict on a move is a parameter `legal`. The clock is a
parameter `now` in ms.

Several behaviours of the source are stated and proved as they are written:
- `hide` saves the session statistics but never clears the session's solve times. Hiding twice
  without a new session therefore counts the same puzzles twice (`RepeatedHideCountsTwice`).
- The removal timer that `hide` schedules removes whatever root the manager holds when it
  fires 300 ms later. When `show` switches modes, it hides the old overlay and replaces it by
  the new root at once, so that timer removes the new overlay. The old root is never removed:
  it stays in the page, without its styles, and the model counts it in `strayRoots`. `Show`
  and the detector's `CheckState` return whether they scheduled the timer, and
  `SwitchThenRemoval` runs the switch and then the timer.
- A start of the same mode that arrives during the fade-out shows nothing. The overlay still
  has its type, so `show` returns at once, and the root stays invisible until the timer
  removes it (`ShowDuringFadeOut`). A start of the other mode opens it, visible, and the
  earlier timer then removes it (`SwitchThenRemoval`).
- A switch from video to chess saves the old session's statistics only after `renderChess`
  has emptied the session's solve times. The save therefore adds no puzzles, while it still
  adds the old session's duration to the time spent and writes the three statistics keys
  (`Show`). A switch to video keeps the solve times, so that save counts them.
- A drop plays `source + target`, four characters, so a player's solution move with a
  promotion piece (five characters) never matches, and a puzzle in which the player must
  promote cannot be finished (`PromotionNeverExpected`). The opponent's promotions are played
  as the solution gives them.
- The video streak rule adds one only when the last video date is yesterday, whatever the last
  active date. On a day that follows a day with both a puzzle and a video, solving the daily puzzle and then watching a video raises the
  streak twice (`PuzzleThenVideoCountsTwice`).
- A start of thinking inside the debounce window still sets `isThinking`, so no new start
  fires until thinking stops (`CheckState`).

## Model

| member | source | states |
|---|---|---|
| Storage.DayOf | src/content/renderer.js:1063 | the day number of a timestamp is the UTC day that contains it |
| Storage.Truthy | popup/popup.js:28-29 | an absent setting reads as false and a saved boolean as itself |
| Storage.NumOrZero | src/content/renderer.js:161-165 | an absent counter reads as 0 and a stored number as itself |
| Storage.KeyNamesDistinct | src/content/renderer.js:155-160 | distinct keys are stored under distinct names |
| Storage.DayBefore | src/content/renderer.js:1063-1064 | the date string of `now - 86400000` names the day before today's |
| Renderer.TrainingPuzzles | src/content/renderer.js:607-643 | a batch of training requests adds at most one puzzle per request, exactly one per request when none fails, each a non-daily puzzle carrying a successful answer's id, position and solution |
| Renderer.TrainingPuzzlesFromAnswers | src/content/renderer.js:614-625 | every puzzle a batch adds is a non-daily puzzle built from one of the successful answers |
| Renderer.TrainingPuzzlesStep | src/content/renderer.js:613-631 | one more request adds exactly the puzzle of its answer when it succeeded and nothing when it failed |
| Renderer.DailySolvedToday | src/content/renderer.js:646-653 | a record from another day, or without an id or with an empty one, is not solved today |
| Renderer.StatusTextsDistinct | src/content/renderer.js:609-1028 | the fixed status messages are pairwise different |
| Renderer.LoadedQueue | src/content/renderer.js:645-693 | the queue is never empty after loading |
| Renderer.LoadedQueueLayout | src/content/renderer.js:645-693 | loading keeps the earlier entries, adds at most the daily puzzle and one entry per training answer, puts the daily puzzle first among the new entries exactly when it is not solved today and was fetched, and queues no daily puzzle otherwise or after the first new entry; when nothing was queued before and nothing loads, the queue is just the fallback puzzle, with an empty solution |
| Renderer.StreakAfterSolve | src/content/renderer.js:1062-1080 | a daily solve on a day not yet active leaves a streak of at least 1 |
| Renderer.StreakRecord | src/content/renderer.js:1062-1080 | for any stored area: the last active date becomes today; the streak grows by one after a last active day of yesterday, stays when today is already active, and is 1 otherwise (absent, older or later date); no other key changes |
| Renderer.SolvedRecord | src/content/renderer.js:1051-1060 | a puzzle with an id overwrites the daily record with that id and today's date, so the record says "solved today"; no other key is added or changed; a puzzle without an id leaves storage alone |
| Renderer.StatsWrite | src/content/renderer.js:155-174 | the write of a save: only the three statistics keys change; the total grows by exactly the count read at that moment, the time spent by exactly the duration; the session record is at least both the count and the old record, and is one of them |
| Renderer.SessionStatsUpdate | src/content/renderer.js:146-174 | a save during which the session does not change: a session without solves changes nothing; otherwise only the three statistics keys change, the total grows by exactly the session's count, the time spent by exactly its duration, and the session record becomes at least that count and never decreases |
| Renderer.SessionStatsKeepDaily | src/content/renderer.js:163-170 | saving statistics does not change whether the daily puzzle counts as solved today |
| Renderer.OverlayManager.constructor | src/content/renderer.js:4-28 | no overlay, no puzzle, an empty queue and session, empty solved and hint sets |
| Renderer.OverlayManager.Show | src/content/renderer.js:100-128 | showing the type already attached changes nothing; otherwise any attached overlay is hidden first (its game cleared, its removal timer scheduled, which is reported exactly on a switch) and a visible root of the new type replaces it, the old root staying in the page (one more stray root exactly on a switch); the save that hiding started then writes: on a switch to video the full statistics update of the old session, on a switch to chess no puzzles but the old session's duration; with no overlay attached or no solves, storage is unchanged; a chess session starts with fresh bookkeeping, the queue loaded from an empty one and its first puzzle on the board; a video leaves the queue and session alone |
| Renderer.OverlayManager.Attach | src/content/renderer.js:106-127 | the manager holds a visible root of the new type |
| Renderer.OverlayManager.Open | src/content/renderer.js:104-128 | the root is attached and visible with the new type, and the chess rendering or nothing for video |
| Renderer.OverlayManager.RenderChess | src/content/renderer.js:486-605 | a chess session: no solves, start time now, no manual navigation, no hints or solved ids, the queue as loaded, index 0 and the first puzzle on the board |
| Renderer.OverlayManager.ResetSession | src/content/renderer.js:487-493 | the session bookkeeping is reset and the queue emptied |
| Renderer.OverlayManager.Hide | src/content/renderer.js:130-144 | the statistics are saved and the game cleared whether or not an overlay is attached; the fade-out and the removal timer start only when one is attached |
| Renderer.OverlayManager.OnHideTimer | src/content/renderer.js:135-142 | when the timer fires, the manager holds no root and has no current type; roots it let go of on a switch stay in the page |
| Renderer.OverlayManager.StartHide | src/content/renderer.js:130-144 | the save is started (pending exactly when the session has solves, with its duration now), the game cleared, and the fade-out and removal timer begun exactly when an overlay is attached |
| Renderer.OverlayManager.BeginSaveSessionStats | src/content/renderer.js:146-153 | nothing to save exactly when the session has no solves; otherwise the duration from the session's start to now |
| Renderer.OverlayManager.FinishSaveSessionStats | src/content/renderer.js:155-174 | the local area becomes the statistics write for the solve count held at that moment and the given duration |
| Renderer.OverlayManager.CleanupChess | src/content/renderer.js:176-183 | no solution, move index 0, not the player's turn, no game |
| Renderer.OverlayManager.FetchMorePuzzles | src/content/renderer.js:607-643 | the queue grows by exactly the training puzzles of the successful answers, in request order; the count returned is their number, at most the number of requests |
| Renderer.OverlayManager.AppendTraining | src/content/renderer.js:613-631 | after the request loop the queue is the old one followed by the training puzzles of the successful answers, and the count is their number |
| Renderer.OverlayManager.LoadPuzzleQueue | src/content/renderer.js:645-693 | the queue becomes the loaded queue for the current local record, today, the daily answer and the one training answer |
| Renderer.OverlayManager.SidebarMarks | src/content/renderer.js:695-718 | one mark per queue entry: completed exactly when its id was solved in this session, current exactly when it is not completed and is the current index |
| Renderer.OverlayManager.GoToPuzzle | src/content/renderer.js:720-728 | an index outside the queue changes nothing; otherwise the index is set, manual navigation is recorded only when not automatic, and that entry is on the board |
| Renderer.OverlayManager.RenderCurrentPuzzle | src/content/renderer.js:730-805 | the current entry is loaded: start time now, its id, its solution or an empty one, move 0, a new game, the player to move, "Find the best move!" |
| Renderer.OverlayManager.CanDrag | src/content/renderer.js:877-884 | a piece can be picked up only while the game runs, the piece is the side to move's and it is the player's turn; after an accepted move that hands the turn to the opponent, no piece can be picked up (`OnDrop`) |
| Renderer.OverlayManager.OnDrop | src/content/renderer.js:886-919 | an illegal move snaps back and changes nothing; a legal move that is not the expected one is taken back with "Try again!"; the expected move is kept, the index grows by exactly one, and the solved step is scheduled exactly when the solution is complete, the opponent's reply otherwise |
| Renderer.Substring | src/content/renderer.js:928-929 | JavaScript `substring` with both ends clamped: each character is the source's at the same offset, the length is the span when it fits, and a start past the end gives the empty string |
| Renderer.Squares | src/content/renderer.js:969-970 | the from and to squares of a move have two characters each and put together give back the first four characters of the move |
| Renderer.OverlayManager.MakeOpponentMove | src/content/renderer.js:925-946 | nothing happens past the end of the solution; otherwise the next solution move is played, the index grows by one, the player is to move, and solving is scheduled exactly when the index reaches the solution length |
| Renderer.OverlayManager.ShowHint | src/content/renderer.js:956-993 | without a solution or a current entry nothing happens; otherwise the entry's id joins the hinted set, and the squares of the expected move are shown exactly when there is an expected move, the status line then reading "Hint: Move from <from> to <to>" and staying as it was otherwise |
| Renderer.OverlayManager.OnPuzzleSolved | src/content/renderer.js:1002-1049 | the puzzle's id (if any) joins the solved set; exactly one solve time is appended; for a daily puzzle only, the daily record is overwritten and the streak updated; more puzzles are requested exactly when within two entries of the end; the auto-advance is scheduled to the next entry exactly when there is one and the user had not navigated; the navigation flag is cleared |
| Renderer.OverlayManager.RecordSolve | src/content/renderer.js:1006-1014 | the id (if any) joins the solved set and one solve time is appended |
| Renderer.OverlayManager.RecordDailySolve | src/content/renderer.js:1020-1023 | when the puzzle on the board is the daily one, the daily record, then the streak, are written for today; otherwise the local area is unchanged |
| Renderer.OverlayManager.ScheduleAfterSolve | src/content/renderer.js:1026-1048 | more puzzles are requested exactly when within two entries of the end, and the status then says so; the auto-advance goes to the next entry exactly when there is one and the user had not navigated; the navigation flag is cleared |
| Renderer.OverlayManager.OnAutoAdvance | src/content/renderer.js:1037-1046 | the navigation flag is cleared and the next entry, if it exists, is on the board |
| Renderer.OverlayManager.MarkPuzzleAsSolved | src/content/renderer.js:1051-1060 | the local area becomes the daily record of the current puzzle and today |
| Renderer.OverlayManager.UpdateStreak | src/content/renderer.js:1062-1080 | the local area becomes the streak record for today |
| Renderer.SwitchThenRemoval | src/content/renderer.js:100-142 | after a switch from chess to video the new root is visible and the removal is scheduled; when the timer fires the manager holds no root, and the old chess root is one more root left in the page |
| Renderer.ShowDuringFadeOut | src/content/renderer.js:100-142 | showing the same mode during the fade-out leaves the root invisible, and the timer then detaches it |
| Renderer.PromotionNeverExpected | src/content/renderer.js:886-896 | a drop between two squares never matches a five-character solution move |
| Renderer.ConsecutiveDailySolves | src/content/renderer.js:1062-1080 | solving the daily puzzle on n consecutive days after the last active day raises the streak by exactly n and leaves the last of those days as last active |
| Renderer.SolveAgainSameDay | src/content/renderer.js:1062-1080 | a second daily solve on the same day changes neither the streak nor the date |
| Renderer.StreakRestartsAfterGap | src/content/renderer.js:1062-1080 | after a day without a solve the streak starts again at 1 |
| Renderer.SavedSessionsTotals | src/content/renderer.js:146-174 | over any number of saved sessions the stored total grows by exactly their solved counts, and the session record is at least each session's count, never decreases, and is the old record or one of the counts |
| Renderer.RepeatedHideCountsTwice | src/content/renderer.js:130-174 | saving the same session twice adds its count twice to the total |
| Detector.ContainsOccurs | src/content/detector.js:15 | the hostname test holds exactly when the text occurs somewhere in the hostname |
| Detector.Thinking | src/content/detector.js:42-52 | the page is thinking exactly when the site's stop button or its thinking indicator is present |
| Detector.ChooseMode | src/content/detector.js:72-91 | chess when neither setting was ever saved or chess is on; video exactly when chess is off and video on; nothing exactly when both are off and one of them was saved |
| Detector.VideoStreakAfter | src/content/detector.js:104-114 | nothing is written exactly when a video was counted today; after a video yesterday the streak grows by one; otherwise it restarts at 1 unless the day is already active |
| Detector.VideoStreakRecord | src/content/detector.js:103-120 | the first video of a day writes the streak the video rule gives and sets the last video date and the last active date to today, adding or changing no other key; a later one changes nothing |
| Detector.StreakKeysDecideVideoRecord | src/content/detector.js:103-120 | areas that agree on the streak keys still agree on them after the video update |
| Detector.SessionStatsKeepStreak | src/content/renderer.js:163-170 | saving statistics leaves the streak keys alone, so the video streak update that follows writes the same streak |
| Detector.VideoThenPuzzleSameDay | src/content/detector.js:108-114 | the daily puzzle solved after the day's first video does not raise the streak again |
| Detector.PuzzleThenVideoCountsTwice | src/content/detector.js:108-114 | after a day with both a puzzle and a video, a puzzle and then a video raise the streak by two |
| Detector.EdgeOf | src/content/detector.js:54-62 | a start exactly when the page turns to thinking, a stop exactly when it turns back |
| Detector.Edges | src/content/detector.js:54-62 | one reported edge per check, each the edge between the state the previous checks left and what this check sees |
| Detector.StartsAndStopsAlternate | src/content/detector.js:54-62 | from a fresh detector the starts reported equal the stops, plus one while the page is still thinking, so a hide is only ever sent after a start |
| Detector.StateDetector.constructor | src/content/detector.js:13-20 | the site is Gemini exactly when the hostname contains "google"; not thinking, nothing observed, no overlay time, no video counted |
| Detector.StateDetector.Init | src/content/detector.js:22-40 | observing and polling are on and the page has been checked once; a removal is reported only after an edge, with an overlay attached |
| Detector.StateDetector.CheckState | src/content/detector.js:42-63 | afterwards `isThinking` is the page's state; a start is reported and handled exactly on a change to thinking; inside the debounce window it changes neither storage, the overlay nor the video flag; outside it the overlay shows the chosen mode unless that mode is already attached, in which case the overlay does not change (it stays invisible during a fade-out); a new mode is visible, and a new chess session is the queue loaded from the local area at index 0; a video sets the flag and the streak keys as the video rule says, or keeps them when already counted; a stop is reported exactly on a change back, hides the overlay (saving its session, an attached root no longer visible); the removal timer is reported exactly when the hide or a mode switch scheduled it; no change touches nothing |
| Detector.StateDetector.OnThinkingStart | src/content/detector.js:65-95 | within 2000 ms of the last opening nothing happens and the time is kept; otherwise the time becomes now and the overlay shows the chosen mode unless that mode is already attached, in which case the overlay does not change; a new mode is visible, and a new chess session is the queue loaded from the local area at index 0; a video counting towards the streak (the flag is set exactly when the video is the day's first or was counted before; an already counted one keeps the streak keys); the removal timer is reported exactly on a mode switch |
| Detector.StateDetector.ShowChosenMode | src/content/detector.js:72-91 | the overlay shows the mode the synced settings choose, if any, unless that mode is already attached, in which case the overlay does not change; a new mode is visible, and a new chess session is the queue loaded from the local area at index 0; a video updates the streak keys as the video rule says, or keeps them when this detector already counted one; the flag is set exactly when the video is the day's first or was counted before; the removal timer is reported exactly on a mode switch |
| Detector.StateDetector.CountShownVideo | src/content/detector.js:88-90 | the video just shown updates the streak keys as the video rule says for the area before it was shown, or keeps them when already counted; the flag is set exactly when it was set or the day's first video was counted now |
| Detector.StateDetector.TrackVideoStreak | src/content/detector.js:97-124 | once this detector has counted a video nothing happens; otherwise the local area becomes the video streak record for today and the detector remembers it exactly when something was written |
| Detector.StateDetector.Destroy | src/content/detector.js:126-135 | observing and polling are off; a second call changes nothing |
| Popup.PuzzleStatusTextsDistinct | popup/popup.js:78-102 | each status has its own text, and only the unchecked one is blank |
| Popup.StatusFor | popup/popup.js:78-102 | "solved" exactly when the record names the service's daily puzzle and today; the error status exactly when the request failed |
| Popup.SettingsRecord | popup/popup.js:62-66 | both toggles are stored as booleans and no other setting changes |
| Popup.SettingsPanel.constructor | popup/popup.js:1-11 | the popup starts with the toggles in their page states and the status line unchecked |
| Popup.SettingsPanel.OnLoad | popup/popup.js:13-34 | the toggles show the mode the detector would open for the stored settings, and the status line is computed; the first run saves chess on and video off, and every other load, or a failed read, leaves the synced area alone |
| Popup.SettingsPanel.LoadSettings | popup/popup.js:14-31 | a failed read changes nothing; on the first run chess is on, video off, and that pair is saved; otherwise each toggle shows its setting, with absent or false shown as off |
| Popup.SettingsPanel.OnChessChange | popup/popup.js:37-42 | the chess toggle flips, turning it on turns video off, turning it off leaves video alone, the two are never both on afterwards, and exactly that pair is saved |
| Popup.SettingsPanel.OnVideoChange | popup/popup.js:44-49 | the video toggle flips, turning it on turns chess off, turning it off leaves chess alone, the two are never both on afterwards, and exactly that pair is saved |
| Popup.SettingsPanel.SaveSettings | popup/popup.js:62-76 | the synced area stores the current pair of toggles |
| Popup.SettingsPanel.ResetDailyProgress | popup/popup.js:52-60 | exactly the two daily record keys are removed, nothing else, and the status line then cannot say solved |
| Popup.SettingsPanel.UpdatePuzzleStatus | popup/popup.js:78-102 | the status line is the status for the service's answer, the local record and today |
| Popup.SavedTogglesChooseMode | popup/popup.js:62-66 | the saved pair makes the detector open chess when chess is on, else video when video is on, else nothing |
| Popup.FirstRunDefaultsAgree | popup/popup.js:20-25 | on the first run the popup's default and the detector's default are both chess |
| Popup.ResetRequeuesDaily | popup/popup.js:52-54 | after a reset the next chess session queues the fetched daily puzzle first |
| Popup.SolvedDailyStatus | popup/popup.js:91-97 | after the overlay records a daily solve, the popup shows solved for that puzzle on that day, and waiting for another puzzle or on the next day |
| Popup.SolvedStatusSkipsDaily | popup/popup.js:91-97 | when the popup shows solved, the overlay's next queue holds no daily puzzle |

## Left out

- DOM construction is not modelled: styles, the sidebar and board markup, the unicode piece
  images, the title, counter, navigation button states and the hint button label. The status
  element, board container, toggles and status text are taken to exist, so the source's
  guards around them always pass.
- Sounds (loading and playing) and the audio toggle are not modelled.
- The chess rules engine and board library are foreign code:
  - move legality is the input `legal`;
  - the position is modelled as the list of moves played since the puzzle's start (`moves`);
  - check detection is not modelled, and `game_over` and the side to move are inputs of
    `CanDrag`;
  - `pgnToFen` is not modelled, and an answer carries its derived position.
- src/background/background.js is not part of this model. The answers it relays are inputs:
  `Fetch` for the overlay and `DailyFetch` for the popup.
- Timers, the mutation observer, the polling interval and `requestAnimationFrame` are not run.
  They are the explicit steps named above, and the `visible` class is added at once.
- Asynchronous interleaving is not modelled beyond the statistics save that `show` starts
  while hiding the old mode, which writes after the new mode is rendered. Every other handler
  runs as one atomic step, so races between storage reads and writes of different handlers are
  not covered. One consequence: an
  overlay whose chess session is still loading counts as already rendered.
- Storage failures are not modelled. Only the popup's failed settings read is (`readFailed`).
  A failed read in `loadPuzzleQueue` would count the daily puzzle as unsolved.
- A daily answer whose puzzle object has no id is not modelled: the popup would compare the
  stored id with `undefined` and, for any record it writes itself, show the puzzle as waiting.
- Date strings are not modelled; dates are UTC day numbers.
- The floating-point averages are left out: `avgTimePerPuzzle`, the session average and
  `updateSessionStats`' display.
- The video overlay's content is left out: the random video choice, its markup and the mute
  state. Only its effect on the overlay's type is modelled.
- The fields `isTrainingMode`, `audioEnabled`, `dailyPuzzleDate` and `videoMuted` are never
  read by the modelled logic.
- The reset button's label feedback and its timer are not modelled.
- The popup resets only the daily record; popup/popup.js has no handler that resets the
  statistics.
- Counters are read with `|| 0`. The model reads any stored value other than a number as 0; the
  extension only ever writes numbers there.
- Renderer.LoadedQueue: its own contract states only that the queue is not empty. The rest of
  its layout is `Renderer.LoadedQueueLayout`.
- Renderer.StreakAfterSolve: its own contract gives only a lower bound. The exact rule is the
  contract of `StreakRecord`, which `UpdateStreak` writes.

=== FILE: detector.dfy ===
/** The thinking detector: watches the chat page for the signs that the assistant is working,
    opens the overlay when it starts (at most once per debounce window, in the mode the
    settings choose) and hides it when it stops; tracks the video streak. */
module Detector {
  import opened Storage
  import opened Renderer

  datatype Site = ChatGpt | Gemini

  /** The two selectors each site is watched with: the stop button, the primary sign of a
      response being generated, and a thinking indicator as a backup. */
  datatype Selector = StopButton(site: Site) | ThinkingIndicator(site: Site)

  /** The CSS text of a selector. */
  function SelectorText(sel: Selector): string
  {
    match sel
    case StopButton(ChatGpt) => "[data-testid=\"stop-button\"]"
    case ThinkingIndicator(ChatGpt) => ".result-thinking, [data-testid=\"thinking-indicator\"]"
    case StopButton(Gemini) =>
      "mat-icon[fonticon=\"stop\"], mat-icon[data-mat-icon-name=\"stop\"], .stop-button, button[aria-label*=\"stop\" i]"
    case ThinkingIndicator(Gemini) => ".loading-dots, .generating-text, [data-loading=\"true\"], .response-loading"
  }

  /** `s.includes(part)`. */
  predicate Contains(s: string, part: string)
  {
    part <= s || (s != [] && Contains(s[1..], part))
  }

  /** `part` occurs in `s` starting at index `i`. */
  predicate OccursAt(s: string, part: string, i: nat)
  {
    i + |part| <= |s| && s[i..i + |part|] == part
  }

  /** `Contains` holds exactly when `part` occurs somewhere in `s`. */
  lemma {:induction false} ContainsOccurs(s: string, part: string)
    ensures Contains(s, part) <==> exists i: nat :: OccursAt(s, part, i)
  {
    if part <= s {
      assert s[0..|part|] == part;
      assert OccursAt(s, part, 0);
    } else if s == [] {
      assert part != [];
    } else {
      ContainsOccurs(s[1..], part);
      if Contains(s[1..], part) {
        var j: nat :| OccursAt(s[1..], part, j);
        assert s[j + 1..j + 1 + |part|] == s[1..][j..j + |part|];
        assert OccursAt(s, part, j + 1);
      }
      forall i: nat | OccursAt(s, part, i)
        ensures Contains(s[1..], part)
      {
        assert i != 0;
        assert s[1..][i - 1..i - 1 + |part|] == s[i..i + |part|];
        assert OccursAt(s[1..], part, i - 1);
      }
    }
  }

  /** Whether the page shows the assistant at work; `present` holds the selectors that match
      an element of the page at this moment. Both sites have a thinking indicator selector,
      so it is always consulted. */
  predicate Thinking(site: Site, present: set<Selector>)
  {
    StopButton(site) in present || ThinkingIndicator(site) in present
  }

  /** Starts closer together than this many ms open the overlay only once. */
  const DebounceMs := 2000

  /** The overlay mode the synced settings ask for: chess when neither setting was ever saved,
      otherwise chess when enabled, else video when enabled, else none. */
  function ChooseMode(settings: StoreMap): (m: Option<OverlayType>)
    ensures Lookup(settings, ChessEnabled) == None && Lookup(settings, VideoEnabled) == None ==> m == Some(Chess)
    ensures Truthy(Lookup(settings, ChessEnabled)) ==> m == Some(Chess)
    ensures m == Some(Video) <==> !Truthy(Lookup(settings, ChessEnabled)) && Truthy(Lookup(settings, VideoEnabled))
    ensures m == None <==>
              && !Truthy(Lookup(settings, ChessEnabled)) && !Truthy(Lookup(settings, VideoEnabled))
              && !(Lookup(settings, ChessEnabled) == None && Lookup(settings, VideoEnabled) == None)
  {
    var firstRun := Lookup(settings, ChessEnabled) == None && Lookup(settings, VideoEnabled) == None;
    if firstRun || Truthy(Lookup(settings, ChessEnabled)) then Some(Chess)
    else if Truthy(Lookup(settings, VideoEnabled)) then Some(Video)
    else None
  }

  /** The streak after a video is watched on day `today`, given the stored streak and dates;
      `None` when a video was already counted today and nothing is written. */
  function VideoStreakAfter(streak: int, lastVideo: Option<Value>, lastActive: Option<Value>, today: int): (r: Option<int>)
    ensures r.None? <==> lastVideo == Some(Day(today))
    ensures lastVideo == Some(Day(today - 1)) ==> r == Some(streak + 1)
    ensures lastVideo != Some(Day(today)) && lastVideo != Some(Day(today - 1)) ==>
              r == Some(if lastActive == Some(Day(today)) then streak else 1)
  {
    if lastVideo == Some(Day(today)) then None
    else if lastVideo == Some(Day(today - 1)) then Some(streak + 1)
    else if lastActive != Some(Day(today)) then Some(1)
    else Some(streak)
  }

  /** The local area after a video is watched on day `today`. */
  function VideoStreakRecord(stored: StoreMap, today: int): (r: StoreMap)
    ensures Lookup(stored, LastVideoDate) == Some(Day(today)) ==> r == stored
    ensures Lookup(stored, LastVideoDate) != Some(Day(today)) ==>
              && Lookup(r, LastVideoDate) == Some(Day(today)) && Lookup(r, LastActiveDate) == Some(Day(today))
              && r.Keys == stored.Keys + {Streak, LastVideoDate, LastActiveDate}
              && Lookup(r, Streak) == Some(Num(VideoStreakAfter(NumOrZero(stored, Streak), Lookup(stored, LastVideoDate),
                                                                Lookup(stored, LastActiveDate), today).value))
    ensures forall k :: k in stored && k != Streak && k != LastVideoDate && k != LastActiveDate ==> r[k] == stored[k]
  {
    match VideoStreakAfter(NumOrZero(stored, Streak), Lookup(stored, LastVideoDate), Lookup(stored, LastActiveDate), today)
    case None => stored
    case Some(s) => stored[Streak := Num(s)][LastVideoDate := Day(today)][LastActiveDate := Day(today)]
  }

  /** The streak keys agree in `a` and `b`. */
  predicate SameStreakKeys(a: StoreMap, b: StoreMap)
  {
    && Lookup(a, Streak) == Lookup(b, Streak)
    && Lookup(a, LastVideoDate) == Lookup(b, LastVideoDate)
    && Lookup(a, LastActiveDate) == Lookup(b, LastActiveDate)
  }

  /** The video streak update reads and writes the streak keys only: areas that agree on
      them still agree after it. */
  lemma StreakKeysDecideVideoRecord(a: StoreMap, b: StoreMap, today: int)
    requires SameStreakKeys(a, b)
    ensures SameStreakKeys(VideoStreakRecord(a, today), VideoStreakRecord(b, today))
  {
  }

  /** Saving session statistics does not touch the streak keys, so the video streak update
      after it writes the same streak as it would have before it. */
  lemma SessionStatsKeepStreak(stats: StoreMap, count: nat, elapsed: int, today: int)
    ensures SameStreakKeys(SessionStatsUpdate(stats, count, elapsed), stats)
    ensures SameStreakKeys(VideoStreakRecord(SessionStatsUpdate(stats, count, elapsed), today),
                           VideoStreakRecord(stats, today))
  {
    var r := SessionStatsUpdate(stats, count, elapsed);
    assert Streak !in StatsKeys && LastVideoDate !in StatsKeys && LastActiveDate !in StatsKeys;
    assert Lookup(r, Streak) == Lookup(stats, Streak);
    assert Lookup(r, LastVideoDate) == Lookup(stats, LastVideoDate);
    assert Lookup(r, LastActiveDate) == Lookup(stats, LastActiveDate);
  }

  /** The first video of a day and then the daily puzzle on the same day raise the streak
      once: the puzzle sees the day already active. */
  lemma VideoThenPuzzleSameDay(stored: StoreMap, today: int)
    requires Lookup(stored, LastVideoDate) != Some(Day(today))
    ensures NumOrZero(StreakRecord(VideoStreakRecord(stored, today), today), Streak)
            == NumOrZero(VideoStreakRecord(stored, today), Streak)
  {
    var v := VideoStreakRecord(stored, today);
    assert Lookup(v, LastActiveDate) == Some(Day(today));
  }

  /** The daily puzzle and then a video on the day after both were last done raise the streak
      twice: the video rule looks at the last video date only. */
  lemma PuzzleThenVideoCountsTwice(stored: StoreMap, today: int)
    requires Lookup(stored, LastActiveDate) == Some(Day(today - 1))
    requires Lookup(stored, LastVideoDate) == Some(Day(today - 1))
    ensures NumOrZero(VideoStreakRecord(StreakRecord(stored, today), today), Streak)
            == NumOrZero(stored, Streak) + 2
  {
    var p := StreakRecord(stored, today);
    assert NumOrZero(p, Streak) == NumOrZero(stored, Streak) + 1;
    assert Lookup(p, LastVideoDate) == Some(Day(today - 1));
  }

  /** What one state check saw: thinking began, thinking ended, or no change. */
  datatype Edge = NoChange | Started | Stopped

  /** The edge a check reports when the page was thinking (`was`) and now is (`now`). */
  function EdgeOf(was: bool, now: bool): (e: Edge)
    ensures e == Started <==> now && !was
    ensures e == Stopped <==> !now && was
  {
    if now && !was then Started else if !now && was then Stopped else NoChange
  }

  /** The thinking state after a series of observations. */
  function LastSeen(was: bool, obs: seq<bool>): bool
  {
    if obs == [] then was else obs[|obs| - 1]
  }

  /** The edges reported by successive checks observing `obs`, from the state `was`. */
  function Edges(was: bool, obs: seq<bool>): (r: seq<Edge>)
    ensures |r| == |obs|
    ensures forall i :: 0 <= i < |obs| ==> r[i] == EdgeOf(LastSeen(was, obs[..i]), obs[i])
  {
    if obs == [] then []
    else
      var prefix := obs[..|obs| - 1];
      assert forall i :: 0 <= i < |prefix| ==> prefix[..i] == obs[..i];
      Edges(was, prefix) + [EdgeOf(LastSeen(was, prefix), obs[|obs| - 1])]
  }

  function Count(e: Edge, edges: seq<Edge>): nat
  {
    if edges == [] then 0
    else Count(e, edges[..|edges| - 1]) + (if edges[|edges| - 1] == e then 1 else 0)
  }

  /** From a fresh detector, every series of checks reports as many starts as stops, plus one
      while the page is still thinking: starts and stops alternate, beginning with a start. */
  lemma {:induction false} StartsAndStopsAlternate(obs: seq<bool>)
    ensures Count(Started, Edges(false, obs)) == Count(Stopped, Edges(false, obs)) + (if LastSeen(false, obs) then 1 else 0)
  {
    if obs != [] {
      var prefix := obs[..|obs| - 1];
      var r := Edges(false, obs);
      StartsAndStopsAlternate(prefix);
      assert r[..|r| - 1] == Edges(false, prefix);
    }
  }

  class StateDetector {
    var isThinking: bool
    const site: Site
    var observing: bool                 // the mutation observer is attached
    var polling: bool                   // the 500 ms polling interval is running
    var lastOverlayTime: int
    var videoWatchedToday: bool
    const sync: Store                   // the synced settings area
    const local: Store                  // the local area
    const overlay: OverlayManager?      // the page's overlay manager, when it loaded

    ghost predicate Valid()
      reads this, overlay
    {
      && sync != local
      && (overlay != null ==> overlay.Valid() && overlay.local == local)
    }

    /** A detector for the page on `hostname`: Gemini on Google's hosts, ChatGPT elsewhere. */
    constructor (hostname: string, sync: Store, local: Store, overlay: OverlayManager?)
      requires sync != local
      requires overlay != null ==> overlay.Valid() && overlay.local == local
      ensures Valid()
      ensures site == Gemini <==> Contains(hostname, "google")
      ensures !isThinking && !observing && !polling && lastOverlayTime == 0 && !videoWatchedToday
      ensures this.sync == sync && this.local == local && this.overlay == overlay
    {
      isThinking := false;
      site := if Contains(hostname, "google") then Gemini else ChatGpt;
      observing, polling := false, false;
      lastOverlayTime := 0;
      videoWatchedToday := false;
      this.sync, this.local, this.overlay := sync, local, overlay;
    }

    /** Attaches the observer, starts polling and checks the page once. */
    method Init(present: set<Selector>, now: int, daily: Fetch, training: Fetch) returns (edge: Edge, removalScheduled: bool)
      requires Valid()
      modifies this`observing, this`polling, this`isThinking, this`lastOverlayTime, this`videoWatchedToday
      modifies overlay, local
      ensures Valid() && observing && polling
      ensures isThinking == Thinking(site, present)
      ensures edge == Started <==> !old(isThinking) && Thinking(site, present)
      ensures edge == Stopped <==> old(isThinking) && !Thinking(site, present)
      ensures removalScheduled ==> edge != NoChange && overlay != null && old(overlay.host)
    {
      observing := true;
      polling := true;
      edge, removalScheduled := CheckState(present, now, daily, training);
    }

    /** One check of the page: a change from idle to thinking starts the overlay, a change
        from thinking to idle hides it, and no change does nothing. Returns the edge seen and
        whether the overlay's removal timer was scheduled, by the hide or by a mode switch. */
    method CheckState(present: set<Selector>, now: int, daily: Fetch, training: Fetch) returns (edge: Edge, removalScheduled: bool)
      requires Valid()
      modifies this`isThinking, this`lastOverlayTime, this`videoWatchedToday, overlay, local
      ensures Valid()
      ensures isThinking == Thinking(site, present)
      ensures edge == EdgeOf(old(isThinking), isThinking)
      ensures edge == Started <==> !old(isThinking) && Thinking(site, present)
      ensures edge == Stopped <==> old(isThinking) && !Thinking(site, present)
      ensures edge == NoChange ==>
                && lastOverlayTime == old(lastOverlayTime) && videoWatchedToday == old(videoWatchedToday)
                && local.data == old(local.data) && (overlay != null ==> unchanged(overlay))
      ensures edge == Started ==>
                lastOverlayTime == if now - old(lastOverlayTime) < DebounceMs then old(lastOverlayTime) else now
      ensures edge == Started && now - old(lastOverlayTime) < DebounceMs ==>
                && local.data == old(local.data) && videoWatchedToday == old(videoWatchedToday)
                && (overlay != null ==> unchanged(overlay))
      ensures edge == Started && now - old(lastOverlayTime) >= DebounceMs && overlay != null && ChooseMode(sync.data).Some? ==>
                && overlay.host && overlay.currentType == ChooseMode(sync.data)
                && (old(overlay.currentType) == ChooseMode(sync.data) ==> unchanged(overlay))
                && (old(overlay.currentType) != ChooseMode(sync.data) ==> overlay.visible)
      ensures edge == Started && now - old(lastOverlayTime) >= DebounceMs && overlay != null && ChooseMode(sync.data) == Some(Chess)
              && old(overlay.currentType) != Some(Chess) ==>
                overlay.SessionStarted(now, old(local.data), daily, training)
      ensures edge == Started && now - old(lastOverlayTime) >= DebounceMs && overlay != null && ChooseMode(sync.data) == Some(Video) ==>
                && videoWatchedToday == (old(videoWatchedToday) || Lookup(old(local.data), LastVideoDate) != Some(Day(DayOf(now))))
                && (!old(videoWatchedToday) ==> SameStreakKeys(local.data, VideoStreakRecord(old(local.data), DayOf(now))))
                && (old(videoWatchedToday) ==> SameStreakKeys(local.data, old(local.data)))
      ensures edge == Started && (overlay == null || ChooseMode(sync.data) != Some(Video)) ==>
                videoWatchedToday == old(videoWatchedToday)
      ensures edge == Started ==>
                (removalScheduled <==>
                   && now - old(lastOverlayTime) >= DebounceMs && overlay != null && ChooseMode(sync.data).Some?
                   && old(overlay.host) && old(overlay.currentType) != ChooseMode(sync.data))
      ensures edge == Stopped && overlay != null && old(overlay.host) ==> !overlay.visible
      ensures edge == Stopped ==> (removalScheduled <==> overlay != null && old(overlay.host))
      ensures edge == NoChange ==> !removalScheduled
      ensures edge == Stopped ==>
                && lastOverlayTime == old(lastOverlayTime) && videoWatchedToday == old(videoWatchedToday)
      ensures edge == Stopped && overlay != null ==>
                && overlay.ChessCleared()
                && local.data == SessionStatsUpdate(old(local.data), |old(overlay.sessionPuzzles)|,
                                                    now - old(overlay.sessionStartTime))
      ensures edge == Stopped && overlay == null ==> local.data == old(local.data)
    {
      var currentlyThinking := Thinking(site, present);
      removalScheduled := false;
      if currentlyThinking && !isThinking {
        isThinking := true;
        var _, removal := OnThinkingStart(now, daily, training);
        removalScheduled := removal;
        edge := Started;
      } else if !currentlyThinking && isThinking {
        isThinking := false;
        if overlay != null {
          removalScheduled := overlay.Hide(now);
        }
        edge := Stopped;
      } else {
        edge := NoChange;
      }
    }

    /** The start of thinking: unless the overlay was opened less than `DebounceMs` ago,
        opens it in the mode the settings choose, counting a video towards the streak.
        Returns the mode shown and whether the switch scheduled the removal timer. */
    method OnThinkingStart(now: int, daily: Fetch, training: Fetch) returns (shown: Option<OverlayType>, removalScheduled: bool)
      requires Valid()
      modifies this`lastOverlayTime, this`videoWatchedToday, overlay, local
      ensures Valid()
      ensures removalScheduled <==>
                shown.Some? && overlay != null && old(overlay.host) && old(overlay.currentType) != shown
      ensures now - old(lastOverlayTime) < DebounceMs ==>
                && shown == None && lastOverlayTime == old(lastOverlayTime)
                && videoWatchedToday == old(videoWatchedToday)
                && local.data == old(local.data) && (overlay != null ==> unchanged(overlay))
      ensures now - old(lastOverlayTime) >= DebounceMs ==>
                && lastOverlayTime == now
                && shown == (if overlay != null then ChooseMode(sync.data) else None)
      ensures shown.Some? ==> overlay != null && overlay.host && overlay.currentType == shown
      ensures shown.Some? && overlay != null && old(overlay.currentType) == shown ==> unchanged(overlay)
      ensures shown.Some? && overlay != null && old(overlay.currentType) != shown ==> overlay.visible
      ensures shown == Some(Chess) && overlay != null && old(overlay.currentType) != shown ==>
                overlay.SessionStarted(now, old(local.data), daily, training)
      ensures shown == Some(Video) && !old(videoWatchedToday) ==>
                SameStreakKeys(local.data, VideoStreakRecord(old(local.data), DayOf(now)))
      ensures shown == Some(Video) && old(videoWatchedToday) ==> SameStreakKeys(local.data, old(local.data))
      ensures shown == Some(Video) ==>
                videoWatchedToday == (old(videoWatchedToday) || Lookup(old(local.data), LastVideoDate) != Some(Day(DayOf(now))))
      ensures shown != Some(Video) ==> videoWatchedToday == old(videoWatchedToday)
    {
      if now - lastOverlayTime < DebounceMs {
        return None, false;
      }
      lastOverlayTime := now;
      shown, removalScheduled := ShowChosenMode(now, daily, training);
    }

    /** Opens the overlay in the mode the settings choose, when there is one; a video counts
        towards the streak. Returns the mode shown and whether the switch scheduled the removal
        timer. */
    method ShowChosenMode(now: int, daily: Fetch, training: Fetch) returns (shown: Option<OverlayType>, removalScheduled: bool)
      requires Valid()
      modifies this`videoWatchedToday, overlay, local
      ensures Valid()
      ensures removalScheduled <==>
                shown.Some? && overlay != null && old(overlay.host) && old(overlay.currentType) != shown
      ensures shown == (if overlay != null then ChooseMode(sync.data) else None)
      ensures shown.Some? ==> overlay != null && overlay.host && overlay.currentType == shown
      ensures shown.Some? && overlay != null && old(overlay.currentType) == shown ==> unchanged(overlay)
      ensures shown.Some? && overlay != null && old(overlay.currentType) != shown ==> overlay.visible
      ensures shown == Some(Chess) && overlay != null && old(overlay.currentType) != shown ==>
                overlay.SessionStarted(now, old(local.data), daily, training)
      ensures shown == Some(Video) && !old(videoWatchedToday) ==>
                SameStreakKeys(local.data, VideoStreakRecord(old(local.data), DayOf(now)))
      ensures shown == Some(Video) && old(videoWatchedToday) ==> SameStreakKeys(local.data, old(local.data))
      ensures shown == Some(Video) ==>
                videoWatchedToday == (old(videoWatchedToday) || Lookup(old(local.data), LastVideoDate) != Some(Day(DayOf(now))))
      ensures shown != Some(Video) ==> videoWatchedToday == old(videoWatchedToday)
    {
      var settings := sync.data;
      var mode := ChooseMode(settings);
      shown, removalScheduled := None, false;
      if overlay != null && mode.Some? {
        var before := local.data;
        removalScheduled := overlay.Show(mode.value, now, daily, training);
        shown := mode;
        if mode.value == Video {
          SessionStatsKeepStreak(before, |old(overlay.sessionPuzzles)|, now - old(overlay.sessionStartTime), DayOf(now));
          CountShownVideo(now, before);
        }
      }
    }

    /** Counts the video just shown towards the streak; showing it may have saved session
        statistics into the local area, which held `before` until then. */
    method CountShownVideo(now: int, ghost before: StoreMap)
      requires SameStreakKeys(local.data, before)
      modifies local, this`videoWatchedToday
      ensures !old(videoWatchedToday) ==> SameStreakKeys(local.data, VideoStreakRecord(before, DayOf(now)))
      ensures old(videoWatchedToday) ==> local.data == old(local.data) && SameStreakKeys(local.data, before)
      ensures videoWatchedToday == (old(videoWatchedToday) || Lookup(before, LastVideoDate) != Some(Day(DayOf(now))))
    {
      ghost var shown := local.data;
      TrackVideoStreak(now);
      StreakKeysDecideVideoRecord(shown, before, DayOf(now));
    }

    /** Counts today's video towards the streak, once per detector and once per day. */
    method TrackVideoStreak(now: int)
      modifies local, this`videoWatchedToday
      ensures old(videoWatchedToday) ==> videoWatchedToday && local.data == old(local.data)
      ensures !old(videoWatchedToday) ==>
                && local.data == VideoStreakRecord(old(local.data), DayOf(now))
                && (videoWatchedToday <==> Lookup(old(local.data), LastVideoDate) != Some(Day(DayOf(now))))
    {
      if videoWatchedToday {
        return;
      }
      var today := DayOf(now);
      var yesterday := DayOf(now - MsPerDay);
      DayBefore(now);
      var stats := local.data;
      var streak := NumOrZero(stats, Streak);
      var lastVideoDate := Lookup(stats, LastVideoDate);
      if lastVideoDate != Some(Day(today)) {
        if lastVideoDate == Some(Day(yesterday)) {
          streak := streak + 1;
        } else if Lookup(stats, LastActiveDate) != Some(Day(today)) {
          streak := 1;
        }
        local.data := stats[Streak := Num(streak)][LastVideoDate := Day(today)][LastActiveDate := Day(today)];
        videoWatchedToday := true;
      }
    }

    /** Stops observing and polling; a second call finds nothing to stop. */
    method Destroy()
      modifies this`observing, this`polling
      ensures !observing && !polling
      ensures !old(observing) && !old(polling) ==> unchanged(this)
    {
      if observing {
        observing := false;
      }
      if polling {
        polling := false;
      }
    }
  }
}

=== FILE: popup.dfy ===
/** The settings popup: the two mutually exclusive mode toggles kept in the synced area, the
    daily puzzle status line, and the button that forgets today's daily solve. */
module Popup {
  import opened Storage
  import opened Renderer
  import opened Detector

  /** The daily puzzle status line: not checked yet, solved today, waiting, or unknown. */
  datatype PuzzleStatus = Checking | Solved | Pending | Unavailable

  function PuzzleStatusText(s: PuzzleStatus): string
  {
    match s
    case Checking => ""
    case Solved => "✓ You've solved today's puzzle!"
    case Pending => "○ Daily puzzle waiting for you"
    case Unavailable => "Unable to check status"
  }

  /** Each status is shown with its own text; only the unchecked state is blank. */
  lemma PuzzleStatusTextsDistinct(a: PuzzleStatus, b: PuzzleStatus)
    requires a != b
    ensures PuzzleStatusText(a) != PuzzleStatusText(b)
    ensures PuzzleStatusText(a) == "" <==> a == Checking
  {
  }

  /** The outcome of asking the puzzle service for today's daily puzzle: its id, or a failure
      (a network error, a response that is not OK, or a body without a puzzle object). */
  datatype DailyFetch = DailyId(id: string) | DailyFailed

  /** The status line for the answer `fetch` and the local area `stored` on day `today`:
      solved exactly when the stored record names today's puzzle and today's date. */
  function StatusFor(fetch: DailyFetch, stored: StoreMap, today: int): (s: PuzzleStatus)
    ensures s != Checking
    ensures s == Unavailable <==> fetch.DailyFailed?
    ensures s == Solved <==>
              && fetch.DailyId?
              && Lookup(stored, SolvedPuzzleId) == Some(Text(fetch.id))
              && Lookup(stored, SolvedPuzzleDate) == Some(Day(today))
  {
    match fetch
    case DailyFailed => Unavailable
    case DailyId(id) =>
      if Lookup(stored, SolvedPuzzleId) == Some(Text(id)) && Lookup(stored, SolvedPuzzleDate) == Some(Day(today))
      then Solved
      else Pending
  }

  /** The synced area after the toggle states are saved. */
  function SettingsRecord(settings: StoreMap, chess: bool, video: bool): (r: StoreMap)
    ensures Lookup(r, ChessEnabled) == Some(Bool(chess)) && Lookup(r, VideoEnabled) == Some(Bool(video))
    ensures r.Keys == settings.Keys + {ChessEnabled, VideoEnabled}
    ensures forall k :: k in settings && k != ChessEnabled && k != VideoEnabled ==> r[k] == settings[k]
  {
    settings[ChessEnabled := Bool(chess)][VideoEnabled := Bool(video)]
  }

  /** The two keys of the daily record. */
  const DailyKeys: set<Key> := {SolvedPuzzleId, SolvedPuzzleDate}

  class SettingsPanel {
    var chessChecked: bool
    var videoChecked: bool
    var status: PuzzleStatus
    const sync: Store
    const local: Store

    ghost predicate Valid()
      reads this
    {
      sync != local
    }

    /** The popup as its page first draws it, with the toggles in their initial states. */
    constructor (sync: Store, local: Store, chess: bool, video: bool)
      requires sync != local
      ensures Valid() && this.sync == sync && this.local == local
      ensures chessChecked == chess && videoChecked == video && status == Checking
    {
      this.sync, this.local := sync, local;
      chessChecked, videoChecked := chess, video;
      status := Checking;
    }

    /** The page has loaded: the toggles are set from the synced settings, so that they show
        the mode the detector would open, and the status line from the daily puzzle. */
    method OnLoad(readFailed: bool, fetch: DailyFetch, now: int)
      requires Valid()
      modifies this`chessChecked, this`videoChecked, this`status, sync
      ensures Valid()
      ensures status == StatusFor(fetch, local.data, DayOf(now))
      ensures readFailed ==> chessChecked == old(chessChecked) && videoChecked == old(videoChecked)
      ensures !readFailed ==>
                old(ChooseMode(sync.data)) == if chessChecked then Some(Chess) else if videoChecked then Some(Video) else None
      ensures !readFailed && old(Lookup(sync.data, ChessEnabled) == None && Lookup(sync.data, VideoEnabled) == None) ==>
                sync.data == SettingsRecord(old(sync.data), true, false)
      ensures readFailed || !old(Lookup(sync.data, ChessEnabled) == None && Lookup(sync.data, VideoEnabled) == None) ==>
                sync.data == old(sync.data)
    {
      LoadSettings(readFailed);
      UpdatePuzzleStatus(fetch, now);
    }

    /** Reads the synced settings. On the first run (neither setting ever saved) chess is on,
        video off, and that choice is saved at once; otherwise each toggle shows its setting,
        with an absent or false setting shown as off. A failed read changes nothing. */
    method LoadSettings(readFailed: bool)
      requires Valid()
      modifies this`chessChecked, this`videoChecked, sync
      ensures Valid()
      ensures readFailed ==> unchanged(this) && sync.data == old(sync.data)
      ensures !readFailed && old(Lookup(sync.data, ChessEnabled) == None && Lookup(sync.data, VideoEnabled) == None) ==>
                && chessChecked && !videoChecked
                && sync.data == SettingsRecord(old(sync.data), true, false)
      ensures !readFailed && !old(Lookup(sync.data, ChessEnabled) == None && Lookup(sync.data, VideoEnabled) == None) ==>
                && chessChecked == old(Truthy(Lookup(sync.data, ChessEnabled)))
                && videoChecked == old(Truthy(Lookup(sync.data, VideoEnabled)))
                && sync.data == old(sync.data)
    {
      if readFailed {
        return;
      }
      var data := sync.data;
      if Lookup(data, ChessEnabled) == None && Lookup(data, VideoEnabled) == None {
        chessChecked := true;
        videoChecked := false;
        SaveSettings();
      } else {
        chessChecked := Truthy(Lookup(data, ChessEnabled));
        videoChecked := Truthy(Lookup(data, VideoEnabled));
      }
    }

    /** The user flips the chess toggle: turning it on turns video off; the pair is saved. */
    method OnChessChange()
      requires Valid()
      modifies this`chessChecked, this`videoChecked, sync
      ensures Valid()
      ensures chessChecked == !old(chessChecked)
      ensures videoChecked == (old(videoChecked) && !chessChecked)
      ensures !(chessChecked && videoChecked)
      ensures sync.data == SettingsRecord(old(sync.data), chessChecked, videoChecked)
    {
      chessChecked := !chessChecked;
      if chessChecked {
        videoChecked := false;
      }
      SaveSettings();
    }

    /** The user flips the video toggle: turning it on turns chess off; the pair is saved. */
    method OnVideoChange()
      requires Valid()
      modifies this`chessChecked, this`videoChecked, sync
      ensures Valid()
      ensures videoChecked == !old(videoChecked)
      ensures chessChecked == (old(chessChecked) && !videoChecked)
      ensures !(chessChecked && videoChecked)
      ensures sync.data == SettingsRecord(old(sync.data), chessChecked, videoChecked)
    {
      videoChecked := !videoChecked;
      if videoChecked {
        chessChecked := false;
      }
      SaveSettings();
    }

    /** Writes the current state of both toggles to the synced area. */
    method SaveSettings()
      modifies sync
      ensures sync.data == SettingsRecord(old(sync.data), chessChecked, videoChecked)
    {
      sync.data := sync.data[ChessEnabled := Bool(chessChecked)][VideoEnabled := Bool(videoChecked)];
    }

    /** Forgets the daily record, then refreshes the status line. */
    method ResetDailyProgress(fetch: DailyFetch, now: int)
      requires Valid()
      modifies local, this`status
      ensures Valid()
      ensures local.data == old(local.data) - DailyKeys
      ensures status == StatusFor(fetch, local.data, DayOf(now))
      ensures status != Solved
    {
      local.data := local.data - {SolvedPuzzleId, SolvedPuzzleDate};
      UpdatePuzzleStatus(fetch, now);
    }

    /** Shows whether today's daily puzzle, as the puzzle service names it, is recorded as
        solved today. */
    method UpdatePuzzleStatus(fetch: DailyFetch, now: int)
      modifies this`status
      ensures status == StatusFor(fetch, local.data, DayOf(now))
    {
      if fetch.DailyFailed? {
        status := Unavailable;
        return;
      }
      var todayPuzzleId := fetch.id;
      var today := DayOf(now);
      var stored := local.data;
      if Lookup(stored, SolvedPuzzleId) == Some(Text(todayPuzzleId)) && Lookup(stored, SolvedPuzzleDate) == Some(Day(today)) {
        status := Solved;
      } else {
        status := Pending;
      }
    }
  }

  // ---------------------------------------------------------------- how the parts agree

  /** The toggles the popup saves decide the overlay mode the detector opens: chess when the
      chess toggle is on, else video when that one is on, else none. */
  lemma SavedTogglesChooseMode(settings: StoreMap, chess: bool, video: bool)
    ensures ChooseMode(SettingsRecord(settings, chess, video))
            == if chess then Some(Chess) else if video then Some(Video) else None
  {
    var r := SettingsRecord(settings, chess, video);
    assert Lookup(r, ChessEnabled) == Some(Bool(chess));
    assert Lookup(r, VideoEnabled) == Some(Bool(video));
  }

  /** On the first run the popup's default and the detector's default agree: chess. */
  lemma FirstRunDefaultsAgree(settings: StoreMap)
    requires Lookup(settings, ChessEnabled) == None && Lookup(settings, VideoEnabled) == None
    ensures ChooseMode(settings) == Some(Chess)
    ensures ChooseMode(SettingsRecord(settings, true, false)) == Some(Chess)
  {
    SavedTogglesChooseMode(settings, true, false);
  }

  /** After a reset the next chess session queues the daily puzzle first again, when it can
      be fetched. */
  lemma ResetRequeuesDaily(stored: StoreMap, today: int, daily: Fetch, training: seq<Fetch>)
    requires daily.Fetched?
    ensures var q := LoadedQueue([], stored - DailyKeys, today, daily, training);
            q[0] == Puzzle(daily.id, daily.fen, daily.solution, true)
  {
    assert !DailySolvedToday(stored - DailyKeys, today) by {
      assert Lookup(stored - DailyKeys, SolvedPuzzleDate) == None;
    }
    LoadedQueueLayout([], stored - DailyKeys, today, daily, training);
  }

  /** Solving the daily puzzle in the overlay turns the popup's status to solved for the rest
      of that day, for that puzzle only, and back to waiting the next day. */
  lemma SolvedDailyStatus(stored: StoreMap, p: Puzzle, today: int, otherId: string)
    requires p.id != "" && otherId != p.id
    ensures StatusFor(DailyId(p.id), SolvedRecord(stored, p, today), today) == Solved
    ensures StatusFor(DailyId(otherId), SolvedRecord(stored, p, today), today) == Pending
    ensures StatusFor(DailyId(p.id), SolvedRecord(stored, p, today), today + 1) == Pending
  {
    var r := SolvedRecord(stored, p, today);
    assert Lookup(r, SolvedPuzzleId) == Some(Text(p.id));
    assert Lookup(r, SolvedPuzzleDate) == Some(Day(today));
  }

  /** When the popup shows today's puzzle as solved, the overlay leaves it out of the queue. */
  lemma SolvedStatusSkipsDaily(fetch: DailyFetch, stored: StoreMap, today: int, daily: Fetch, training: seq<Fetch>)
    requires StatusFor(fetch, stored, today) == Solved && fetch.id != ""
    ensures forall i :: 0 <= i < |LoadedQueue([], stored, today, daily, training)| ==>
              !LoadedQueue([], stored, today, daily, training)[i].isDaily
  {
    assert DailySolvedToday(stored, today);
    LoadedQueueLayout([], stored, today, daily, training);
  }
}

=== FILE: renderer.dfy ===
/** The overlay presenter: one overlay (a chess-puzzle session or a video), the puzzle queue,
    sequential checking of the player's moves against the solution, and the statistics it
    records when a puzzle is solved or the overlay closes. */
module Renderer {
  import opened Storage

  datatype OverlayType = Chess | Video

  /** A queued puzzle. `solution` lists the moves as from-square + to-square strings, player
      first; the API payload may omit it. */
  datatype Puzzle = Puzzle(id: string, fen: string, solution: Option<seq<string>>, isDaily: bool)

  /** The answer to one puzzle request relayed by the background page: the payload of a
      successful response (with its position already derived), or a failure. */
  datatype Fetch = Fetched(id: string, fen: string, solution: Option<seq<string>>) | FetchFailed

  /** What a dropped piece tells the board: put the piece back, or keep the move. */
  datatype DropResult = Snapback | Accepted

  /** The delayed step an event schedules: none, the opponent's reply, or the solved handler. */
  datatype Timer = NoTimer | OpponentTimer | SolveTimer

  /** How the sidebar marks one queue entry. */
  datatype Mark = Completed | Current | Plain

  const StartFen := "rnbqkbnr/pppppppp/8/8/8/8/PPPPPPPP/RNBQKBNR w KQkq - 0 1"
  const FallbackPuzzle := Puzzle("fallback", StartFen, Some([]), false)

  /** The messages of the puzzle status line; `StatusText` gives the text shown. */
  datatype StatusLine =
    | Blank | FindBestMove | GoodMove | TryAgain | FetchingPuzzles | PuzzleSolved | SolvedLoadingMore
    | HintAt(from: string, to: string)

  function StatusText(s: StatusLine): string
  {
    match s
    case Blank => ""
    case FindBestMove => "Find the best move!"
    case GoodMove => "Good move!"
    case TryAgain => "Try again!"
    case FetchingPuzzles => "Fetching new puzzles..."
    case PuzzleSolved => "Puzzle solved! Great job!"
    case SolvedLoadingMore => "Solved! Loading more..."
    case HintAt(from, to) => "Hint: Move from " + from + " to " + to
  }

  /** The fixed messages of the status line are told apart by their text. */
  lemma StatusTextsDistinct(a: StatusLine, b: StatusLine)
    requires !a.HintAt? && !b.HintAt? && a != b
    ensures StatusText(a) != StatusText(b)
  {
  }

  function SolutionOf(p: Puzzle): seq<string>
  {
    GetOr(p.solution, [])
  }

  function Min(a: int, b: int): int { if a < b then a else b }

  function Max(a: int, b: int): int { if a < b then b else a }

  /** JavaScript `s.substring(from, to)` for `from <= to`: both ends are clamped to the length. */
  function Substring(s: string, from: nat, to: nat): (r: string)
    requires from <= to
    ensures to <= |s| ==> |r| == to - from
    ensures from >= |s| ==> r == []
    ensures forall i :: 0 <= i < |r| ==> from + i < |s| && r[i] == s[from + i]
  {
    s[Min(from, |s|)..Min(to, |s|)]
  }

  /** The from and to squares of a solution move: two characters each, which put together
      give back the move without its promotion piece. */
  function Squares(move: string): (r: (string, string))
    ensures |move| >= 4 ==> |r.0| == 2 && |r.1| == 2 && r.0 + r.1 == move[..4]
    ensures |r.0| <= 2 && |r.1| <= 2
  {
    var r := (Substring(move, 0, 2), Substring(move, 2, 4));
    assert |move| >= 4 ==> r.0 + r.1 == move[..4] by {
      if |move| >= 4 {
        assert forall i :: 0 <= i < 4 ==> (r.0 + r.1)[i] == move[i];
      }
    }
    r
  }

  // ---------------------------------------------------------------- the puzzle queue

  function AsTraining(f: Fetch): seq<Puzzle>
  {
    if f.Fetched? then [Puzzle(f.id, f.fen, f.solution, false)] else []
  }

  /** The training puzzles a batch of requests appends to the queue, in request order. */
  function TrainingPuzzles(responses: seq<Fetch>): (r: seq<Puzzle>)
    ensures |r| <= |responses|
    ensures FetchFailed !in responses ==> |r| == |responses|
  {
    if responses == [] then []
    else
      var last := |responses| - 1;
      assert FetchFailed !in responses ==> FetchFailed !in responses[..last];
      TrainingPuzzles(responses[..last]) + AsTraining(responses[last])
  }

  /** Every training puzzle is a non-daily puzzle carrying a successful answer. */
  lemma {:induction false} TrainingPuzzlesFromAnswers(responses: seq<Fetch>)
    ensures forall p :: p in TrainingPuzzles(responses) ==>
              !p.isDaily && Fetched(p.id, p.fen, p.solution) in responses
  {
    if responses != [] {
      var last := |responses| - 1;
      TrainingPuzzlesFromAnswers(responses[..last]);
      assert forall f :: f in responses[..last] ==> f in responses;
    }
  }

  /** One more answer adds its puzzle, if any, at the end. */
  lemma TrainingPuzzlesStep(responses: seq<Fetch>, i: nat)
    requires i < |responses|
    ensures TrainingPuzzles(responses[..i + 1]) == TrainingPuzzles(responses[..i]) + AsTraining(responses[i])
  {
    assert responses[..i + 1][..i] == responses[..i];
  }

  /** The daily record says a puzzle was solved today: the stored date is today and the stored
      id is not empty. */
  predicate DailySolvedToday(stored: StoreMap, today: int)
    ensures Lookup(stored, SolvedPuzzleDate) != Some(Day(today)) ==> !DailySolvedToday(stored, today)
    ensures Lookup(stored, SolvedPuzzleId) == None || Lookup(stored, SolvedPuzzleId) == Some(Text("")) ==>
              !DailySolvedToday(stored, today)
  {
    Lookup(stored, SolvedPuzzleDate) == Some(Day(today)) && Truthy(Lookup(stored, SolvedPuzzleId))
  }

  function DailyEntry(stored: StoreMap, today: int, daily: Fetch): seq<Puzzle>
  {
    if !DailySolvedToday(stored, today) && daily.Fetched?
    then [Puzzle(daily.id, daily.fen, daily.solution, true)]
    else []
  }

  /** The queue after loading: the daily puzzle unless it is already solved today, then the
      training puzzles, and the fallback position when nothing at all could be loaded. */
  function LoadedQueue(prior: seq<Puzzle>, stored: StoreMap, today: int, daily: Fetch, training: seq<Fetch>): (q: seq<Puzzle>)
    ensures q != []
  {
    var q := prior + DailyEntry(stored, today, daily) + TrainingPuzzles(training);
    if q == [] then [FallbackPuzzle] else q
  }

  /** The loaded queue keeps what was queued before, puts the daily puzzle first among the new
      entries unless it is solved today or could not be fetched, never queues a second daily
      puzzle, and holds just the fallback position, with no moves to find, when nothing at all
      was loaded. */
  lemma LoadedQueueLayout(prior: seq<Puzzle>, stored: StoreMap, today: int, daily: Fetch, training: seq<Fetch>)
    ensures var q := LoadedQueue(prior, stored, today, daily, training);
      && |prior| <= |q| <= |prior| + 1 + |training|
      && q[..|prior|] == prior
      && (!DailySolvedToday(stored, today) && daily.Fetched? ==>
            |q| > |prior| && q[|prior|] == Puzzle(daily.id, daily.fen, daily.solution, true))
      && (DailySolvedToday(stored, today) || daily.FetchFailed? ==>
            forall i :: |prior| <= i < |q| ==> !q[i].isDaily)
      && (forall i :: |prior| + 1 <= i < |q| ==> !q[i].isDaily)
      && (prior == [] && (DailySolvedToday(stored, today) || daily.FetchFailed?) && TrainingPuzzles(training) == [] ==>
            q == [FallbackPuzzle] && SolutionOf(q[0]) == [])
  {
    var t := TrainingPuzzles(training);
    TrainingPuzzlesFromAnswers(training);
    var q := prior + DailyEntry(stored, today, daily) + t;
    if q != [] {
      assert forall i :: |prior| + |DailyEntry(stored, today, daily)| <= i < |q| ==>
        q[i] == t[i - |prior| - |DailyEntry(stored, today, daily)|];
      assert forall i :: 0 <= i < |t| ==> t[i] in t;
    }
  }

  // ---------------------------------------------------------------- streak and statistics

  /** The streak after the daily puzzle is solved on day `today`, given the stored streak and
      last active date. */
  function StreakAfterSolve(streak: int, lastActive: Option<Value>, today: int): (r: int)
    ensures lastActive != Some(Day(today)) && streak >= 0 ==> r >= 1
  {
    if lastActive == Some(Day(today - 1)) then streak + 1
    else if lastActive != Some(Day(today)) then 1
    else streak
  }

  /** The local area after the streak update of a daily solve on day `today`: the streak
      grows by one after a last active day of yesterday, stays as it is when today is already
      active, and restarts at 1 otherwise (no last active date, an older one or a later one);
      today becomes the last active day and no other key changes. */
  function StreakRecord(stored: StoreMap, today: int): (r: StoreMap)
    ensures Lookup(r, LastActiveDate) == Some(Day(today))
    ensures Lookup(stored, LastActiveDate) == Some(Day(today - 1)) ==>
              Lookup(r, Streak) == Some(Num(NumOrZero(stored, Streak) + 1))
    ensures Lookup(stored, LastActiveDate) == Some(Day(today)) ==>
              Lookup(r, Streak) == Some(Num(NumOrZero(stored, Streak)))
    ensures Lookup(stored, LastActiveDate) != Some(Day(today - 1)) && Lookup(stored, LastActiveDate) != Some(Day(today)) ==>
              Lookup(r, Streak) == Some(Num(1))
    ensures r.Keys == stored.Keys + {Streak, LastActiveDate}
    ensures forall k :: k in stored && k != Streak && k != LastActiveDate ==> r[k] == stored[k]
  {
    var s := StreakAfterSolve(NumOrZero(stored, Streak), Lookup(stored, LastActiveDate), today);
    stored[Streak := Num(s)][LastActiveDate := Day(today)]
  }

  /** The local area after puzzle `p` is recorded as the daily puzzle solved on `today`: the
      previous record is overwritten, never added to. */
  function SolvedRecord(stored: StoreMap, p: Puzzle, today: int): (r: StoreMap)
    ensures p.id != "" ==> DailySolvedToday(r, today)
    ensures p.id != "" ==> Lookup(r, SolvedPuzzleId) == Some(Text(p.id)) && Lookup(r, SolvedPuzzleDate) == Some(Day(today))
    ensures p.id != "" ==> r.Keys == stored.Keys + {SolvedPuzzleId, SolvedPuzzleDate}
    ensures forall k :: k in stored && k != SolvedPuzzleId && k != SolvedPuzzleDate ==> k in r && r[k] == stored[k]
    ensures p.id == "" ==> r == stored
  {
    if p.id != "" then stored[SolvedPuzzleId := Text(p.id)][SolvedPuzzleDate := Day(today)]
    else stored
  }

  const StatsKeys: set<Key> := {MostPuzzlesInSession, TotalPuzzlesSolved, TotalTimeSpent}

  /** The statistics a save writes once the stored ones are read: `read` is the number of
      solve times the session holds at that moment, `elapsed` the duration taken when the save
      started. */
  function StatsWrite(stats: StoreMap, read: nat, elapsed: int): (r: StoreMap)
    ensures r.Keys == stats.Keys + StatsKeys
    ensures forall k :: k in stats && k !in StatsKeys ==> r[k] == stats[k]
    ensures NumOrZero(r, TotalPuzzlesSolved) == NumOrZero(stats, TotalPuzzlesSolved) + read
    ensures NumOrZero(r, TotalTimeSpent) == NumOrZero(stats, TotalTimeSpent) + elapsed
    ensures NumOrZero(r, MostPuzzlesInSession) >= read
    ensures NumOrZero(r, MostPuzzlesInSession) >= NumOrZero(stats, MostPuzzlesInSession)
    ensures NumOrZero(r, MostPuzzlesInSession) == read || NumOrZero(r, MostPuzzlesInSession) == NumOrZero(stats, MostPuzzlesInSession)
  {
    stats[MostPuzzlesInSession := Num(Max(NumOrZero(stats, MostPuzzlesInSession), read))]
         [TotalPuzzlesSolved := Num(NumOrZero(stats, TotalPuzzlesSolved) + read)]
         [TotalTimeSpent := Num(NumOrZero(stats, TotalTimeSpent) + elapsed)]
  }

  /** The local area after a session of `count` solved puzzles lasting `elapsed` ms is saved,
      when nothing changes the session while the save waits for the stored statistics. */
  function SessionStatsUpdate(stats: StoreMap, count: nat, elapsed: int): (r: StoreMap)
    ensures count == 0 ==> r == stats
    ensures count > 0 ==> r.Keys == stats.Keys + StatsKeys
    ensures forall k :: k in stats && k !in StatsKeys ==> k in r && r[k] == stats[k]
    ensures count > 0 ==> NumOrZero(r, TotalPuzzlesSolved) == NumOrZero(stats, TotalPuzzlesSolved) + count
    ensures count > 0 ==> NumOrZero(r, TotalTimeSpent) == NumOrZero(stats, TotalTimeSpent) + elapsed
    ensures count > 0 ==> NumOrZero(r, MostPuzzlesInSession) >= count
    ensures NumOrZero(r, MostPuzzlesInSession) >= NumOrZero(stats, MostPuzzlesInSession)
  {
    if count == 0 then stats else StatsWrite(stats, count, elapsed)
  }

  /** Saving the session statistics leaves the daily record, and so the next queue, alone. */
  lemma SessionStatsKeepDaily(stats: StoreMap, count: nat, elapsed: int, today: int)
    ensures DailySolvedToday(SessionStatsUpdate(stats, count, elapsed), today) == DailySolvedToday(stats, today)
  {
    var r := SessionStatsUpdate(stats, count, elapsed);
    assert SolvedPuzzleId !in StatsKeys && SolvedPuzzleDate !in StatsKeys;
    assert Lookup(r, SolvedPuzzleId) == Lookup(stats, SolvedPuzzleId);
    assert Lookup(r, SolvedPuzzleDate) == Lookup(stats, SolvedPuzzleDate);
  }

  // ---------------------------------------------------------------- the overlay manager

  class OverlayManager {
    var host: bool                          // the manager holds a root, which is in the page
    var strayRoots: nat                     // roots left in the page after the manager let go of them
    var visible: bool                       // the root carries the `visible` class
    var currentType: Option<OverlayType>
    var currentPuzzleId: Option<string>
    var puzzleSolution: seq<string>
    var currentMoveIndex: nat
    var isPlayerTurn: bool
    var moves: seq<string>                  // moves the chess game holds since the puzzle's position
    var sessionPuzzles: seq<int>            // solve times of this session, in ms
    var sessionStartTime: int               // `null` before the first session reads as 0 in a subtraction
    var puzzleStartTime: int
    var currentPuzzleIndex: nat
    var puzzleQueue: seq<Puzzle>
    var userManuallyNavigated: bool
    var hintsUsed: set<string>
    var solvedPuzzleIds: set<string>
    var status: StatusLine                  // the puzzle status line
    const local: Store

    ghost predicate Valid()
      reads this
    {
      && (host <==> currentType.Some?)
      && currentMoveIndex <= |puzzleSolution|
      && (currentPuzzleIndex < |puzzleQueue| || currentPuzzleIndex == 0)
    }

    /** The queue, the navigation flag and the session bookkeeping are as before. */
    twostate predicate SessionKept()
      reads this
    {
      && puzzleQueue == old(puzzleQueue) && currentPuzzleIndex == old(currentPuzzleIndex)
      && userManuallyNavigated == old(userManuallyNavigated)
      && sessionPuzzles == old(sessionPuzzles) && sessionStartTime == old(sessionStartTime)
      && hintsUsed == old(hintsUsed) && solvedPuzzleIds == old(solvedPuzzleIds)
    }

    /** The chess game state is as before. */
    twostate predicate ChessKept()
      reads this
    {
      && puzzleSolution == old(puzzleSolution) && moves == old(moves)
      && currentMoveIndex == old(currentMoveIndex) && isPlayerTurn == old(isPlayerTurn)
    }

    /** A chess session started at `now`: the session bookkeeping is fresh, the queue is the
        one loaded from the local area `stored` and the answers, and its first entry is on the
        board. */
    ghost predicate SessionStarted(now: int, stored: StoreMap, daily: Fetch, training: Fetch)
      reads this
    {
      && sessionPuzzles == [] && sessionStartTime == now && !userManuallyNavigated
      && hintsUsed == {} && solvedPuzzleIds == {}
      && puzzleQueue == LoadedQueue([], stored, DayOf(now), daily, [training])
      && currentPuzzleIndex == 0 && ShowsPuzzle(puzzleQueue[0], now)
    }

    /** The puzzle on the board is `p`, loaded at `now` and not yet played. */
    ghost predicate ShowsPuzzle(p: Puzzle, now: int)
      reads this
    {
      && puzzleStartTime == now && currentPuzzleId == Some(p.id)
      && puzzleSolution == SolutionOf(p) && currentMoveIndex == 0
      && moves == [] && isPlayerTurn && status == FindBestMove
    }

    /** The chess game state is cleared. */
    ghost predicate ChessCleared()
      reads this
    {
      puzzleSolution == [] && currentMoveIndex == 0 && !isPlayerTurn && moves == []
    }

    /** `move` is the solution move expected next. */
    predicate Expects(move: string)
      reads this
    {
      currentMoveIndex < |puzzleSolution| && puzzleSolution[currentMoveIndex] == move
    }

    constructor (local: Store)
      ensures Valid() && this.local == local
      ensures !host && !visible && currentType == None && currentPuzzleId == None
      ensures puzzleQueue == [] && currentPuzzleIndex == 0 && !userManuallyNavigated
      ensures sessionPuzzles == [] && sessionStartTime == 0 && puzzleStartTime == 0
      ensures hintsUsed == {} && solvedPuzzleIds == {} && ChessCleared() && strayRoots == 0
    {
      host, visible, currentType, currentPuzzleId := false, false, None, None;
      strayRoots := 0;
      puzzleSolution, currentMoveIndex, isPlayerTurn, moves := [], 0, false, [];
      sessionPuzzles, sessionStartTime, puzzleStartTime := [], 0, 0;
      currentPuzzleIndex, puzzleQueue, userManuallyNavigated := 0, [], false;
      hintsUsed, solvedPuzzleIds, status := {}, {}, Blank;
      this.local := local;
    }

    /** Opens the overlay in mode `t`. Showing the mode already shown changes nothing; showing
        another mode hides the current one first, which schedules the removal timer
        (`OnHideTimer`) while the new root is attached at once. A chess session starts afresh
        and loads its queue from the answers `daily` and `training`. The statistics save that
        hiding starts writes only after the new mode is rendered, so after a switch to chess
        it counts the new, empty session's solves with the old session's duration. Returns
        whether the removal timer was scheduled. */
    method Show(t: OverlayType, now: int, daily: Fetch, training: Fetch) returns (removalScheduled: bool)
      requires Valid()
      modifies this, local
      ensures Valid()
      ensures removalScheduled <==> old(host) && old(currentType) != Some(t)
      ensures old(currentType) == Some(t) ==> unchanged(this) && unchanged(local)
      ensures old(currentType) != Some(t) ==> host && visible && currentType == Some(t)
      ensures strayRoots == old(strayRoots) + (if removalScheduled then 1 else 0)
      ensures t == Video && old(host) && old(currentType) != Some(t) ==>
                local.data == SessionStatsUpdate(old(local.data), |old(sessionPuzzles)|, now - old(sessionStartTime))
      ensures t == Chess && old(host) && old(currentType) != Some(t) && |old(sessionPuzzles)| > 0 ==>
                local.data == StatsWrite(old(local.data), 0, now - old(sessionStartTime))
      ensures !old(host) || |old(sessionPuzzles)| == 0 ==> local.data == old(local.data)
      ensures t == Chess && old(currentType) != Some(t) ==> SessionStarted(now, old(local.data), daily, training)
      ensures t == Video && old(currentType) != Some(t) ==> SessionKept()
      ensures t == Video && old(host) && old(currentType) != Some(t) ==> ChessCleared()
      ensures t == Video && !old(host) ==> ChessKept()
    {
      removalScheduled := false;
      if host && currentType == Some(t) {
        return;
      }
      var pendingSave: Option<int> := None;
      if host {
        pendingSave, removalScheduled := StartHide(now);
        // the new root replaces the old one, which is never removed from the page
        strayRoots := strayRoots + 1;
      }
      Open(t, now, daily, training);
      if pendingSave.Some? {
        FinishSaveSessionStats(pendingSave.value);
      }
    }

    /** Attaches a visible root for mode `t`, starting a chess session for the chess mode. */
    method Open(t: OverlayType, now: int, daily: Fetch, training: Fetch)
      requires Valid()
      modifies this`host, this`visible, this`currentType
      modifies this`sessionStartTime, this`sessionPuzzles, this`currentPuzzleIndex, this`puzzleQueue
      modifies this`userManuallyNavigated, this`hintsUsed, this`solvedPuzzleIds
      modifies this`puzzleStartTime, this`currentPuzzleId, this`puzzleSolution, this`currentMoveIndex
      modifies this`moves, this`isPlayerTurn, this`status
      ensures Valid() && host && visible && currentType == Some(t)
      ensures t == Chess ==> SessionStarted(now, local.data, daily, training)
      ensures t == Video ==> SessionKept() && ChessKept()
    {
      if t == Chess {
        RenderChess(now, daily, training);
      }
      Attach(t);
    }

    /** Puts a visible root of type `t` on the page. */
    method Attach(t: OverlayType)
      requires Valid()
      modifies this`host, this`visible, this`currentType
      ensures Valid() && host && visible && currentType == Some(t)
    {
      currentType := Some(t);
      host := true;
      visible := true;
    }

    /** Starts a chess session: fresh session bookkeeping, the queue loaded, its first puzzle
        on the board. */
    method RenderChess(now: int, daily: Fetch, training: Fetch)
      requires Valid()
      modifies this`sessionStartTime, this`sessionPuzzles, this`currentPuzzleIndex, this`puzzleQueue
      modifies this`userManuallyNavigated, this`hintsUsed, this`solvedPuzzleIds
      modifies this`puzzleStartTime, this`currentPuzzleId, this`puzzleSolution, this`currentMoveIndex
      modifies this`moves, this`isPlayerTurn, this`status
      ensures Valid() && SessionStarted(now, local.data, daily, training)
    {
      ResetSession(now);
      LoadPuzzleQueue(now, daily, training);
      RenderCurrentPuzzle(now);
    }

    /** The bookkeeping of a fresh chess session: no solves, no hints, an empty queue. */
    method ResetSession(now: int)
      modifies this`sessionStartTime, this`sessionPuzzles, this`currentPuzzleIndex, this`puzzleQueue
      modifies this`userManuallyNavigated, this`hintsUsed, this`solvedPuzzleIds
      requires Valid()
      ensures Valid()
      ensures sessionPuzzles == [] && sessionStartTime == now && !userManuallyNavigated
      ensures hintsUsed == {} && solvedPuzzleIds == {} && puzzleQueue == [] && currentPuzzleIndex == 0
    {
      sessionStartTime := now;
      sessionPuzzles := [];
      currentPuzzleIndex := 0;
      puzzleQueue := [];
      userManuallyNavigated := false;
      hintsUsed := {};
      solvedPuzzleIds := {};
    }

    /** Saves the session statistics, clears the chess game and starts fading the overlay out;
        the root itself goes when the removal timer fires (`OnHideTimer`). The session's solve
        times are kept. */
    method Hide(now: int) returns (removalScheduled: bool)
      requires Valid()
      modifies local, this`visible
      modifies this`puzzleSolution, this`currentMoveIndex, this`isPlayerTurn, this`moves
      ensures Valid()
      ensures local.data == SessionStatsUpdate(old(local.data), |sessionPuzzles|, now - sessionStartTime)
      ensures ChessCleared()
      ensures removalScheduled == host
      ensures visible == (old(visible) && !host)
    {
      var pendingSave;
      pendingSave, removalScheduled := StartHide(now);
      if pendingSave.Some? {
        FinishSaveSessionStats(pendingSave.value);
      }
    }

    /** The part of `Hide` that runs at once: the statistics save starts (it takes the
        session's duration now and writes only after reading the stored statistics), the game
        is cleared and the fade-out begins. Returns the duration the pending save will write,
        if it writes at all, and whether the removal timer was scheduled. */
    method StartHide(now: int) returns (pendingSave: Option<int>, removalScheduled: bool)
      requires Valid()
      modifies this`visible, this`puzzleSolution, this`currentMoveIndex, this`isPlayerTurn, this`moves
      ensures Valid()
      ensures pendingSave.None? <==> |sessionPuzzles| == 0
      ensures pendingSave.Some? ==> pendingSave.value == now - sessionStartTime
      ensures ChessCleared()
      ensures removalScheduled == host
      ensures visible == (old(visible) && !host)
    {
      pendingSave := BeginSaveSessionStats(now);
      CleanupChess();
      removalScheduled := host;
      if host {
        visible := false;
      }
    }

    /** The delayed removal scheduled by `Hide`: detaches whatever root is attached now. */
    method OnHideTimer()
      requires Valid()
      modifies this`host, this`currentType
      ensures Valid()
      ensures !host && currentType == None
    {
      if host {
        host := false;
        currentType := None;
      }
    }

    /** The start of the statistics save: a session without solves saves nothing; otherwise
        the session's duration is taken now. */
    method BeginSaveSessionStats(now: int) returns (elapsed: Option<int>)
      ensures elapsed.None? <==> |sessionPuzzles| == 0
      ensures elapsed.Some? ==> elapsed.value == now - sessionStartTime
    {
      if |sessionPuzzles| == 0 {
        return None;
      }
      var sessionEndTime := now;
      elapsed := Some(sessionEndTime - sessionStartTime);
    }

    /** The end of the statistics save, once the stored statistics are read: the solve times
        the session holds at this moment are counted, with the duration `elapsed` taken at the
        start. */
    method FinishSaveSessionStats(elapsed: int)
      modifies local
      ensures local.data == StatsWrite(old(local.data), |sessionPuzzles|, elapsed)
    {
      var stats := local.data;
      var most := Max(NumOrZero(stats, MostPuzzlesInSession), |sessionPuzzles|);
      var total := NumOrZero(stats, TotalPuzzlesSolved) + |sessionPuzzles|;
      var time := NumOrZero(stats, TotalTimeSpent) + elapsed;
      local.data := stats[MostPuzzlesInSession := Num(most)][TotalPuzzlesSolved := Num(total)]
                         [TotalTimeSpent := Num(time)];
    }

    method CleanupChess()
      requires Valid()
      modifies this`puzzleSolution, this`currentMoveIndex, this`isPlayerTurn, this`moves
      ensures Valid() && ChessCleared()
    {
      puzzleSolution := [];
      currentMoveIndex := 0;
      isPlayerTurn := false;
      moves := [];
    }

    /** Appends the puzzles of the successful answers among `responses` (one per request),
        all as training puzzles, and returns how many were added. */
    method FetchMorePuzzles(responses: seq<Fetch>) returns (added: nat)
      requires Valid()
      modifies this`puzzleQueue, this`status
      ensures Valid()
      ensures puzzleQueue == old(puzzleQueue) + TrainingPuzzles(responses)
      ensures added == |TrainingPuzzles(responses)| && added <= |responses|
      ensures status == FetchingPuzzles
    {
      status := FetchingPuzzles;
      added := AppendTraining(responses);
    }

    /** The request loop of `FetchMorePuzzles`: one request per answer, each success pushed. */
    method AppendTraining(responses: seq<Fetch>) returns (added: nat)
      modifies this`puzzleQueue
      ensures puzzleQueue == old(puzzleQueue) + TrainingPuzzles(responses)
      ensures added == |TrainingPuzzles(responses)|
    {
      added := 0;
      for i := 0 to |responses|
        invariant puzzleQueue == old(puzzleQueue) + TrainingPuzzles(responses[..i])
        invariant added == |TrainingPuzzles(responses[..i])|
      {
        TrainingPuzzlesStep(responses, i);
        if responses[i].Fetched? {
          var f := responses[i];
          puzzleQueue := puzzleQueue + [Puzzle(f.id, f.fen, f.solution, false)];
          added := added + 1;
        }
      }
      assert responses[..|responses|] == responses;
    }

    /** Fills the queue: the daily puzzle unless the local record says it was solved today,
        then the one training puzzle the answer `training` carries, then the fallback when the
        queue is still empty. */
    method LoadPuzzleQueue(now: int, daily: Fetch, training: Fetch)
      requires Valid()
      modifies this`puzzleQueue, this`status
      ensures Valid()
      ensures puzzleQueue == LoadedQueue(old(puzzleQueue), local.data, DayOf(now), daily, [training])
    {
      var today := DayOf(now);
      var stored := local.data;
      var dailySolved := false;
      if Lookup(stored, SolvedPuzzleDate) == Some(Day(today)) && Truthy(Lookup(stored, SolvedPuzzleId)) {
        dailySolved := true;
      }
      if !dailySolved && daily.Fetched? {
        puzzleQueue := puzzleQueue + [Puzzle(daily.id, daily.fen, daily.solution, true)];
      }
      var _ := FetchMorePuzzles([training]);
      if |puzzleQueue| == 0 {
        puzzleQueue := puzzleQueue + [FallbackPuzzle];
      }
    }

    /** The sidebar's marks: an entry whose puzzle id is solved is completed, otherwise the
        entry at the current index is current. */
    method SidebarMarks() returns (marks: seq<Mark>)
      ensures |marks| == |puzzleQueue|
      ensures forall i :: 0 <= i < |marks| ==>
                (marks[i] == Completed <==> puzzleQueue[i].id in solvedPuzzleIds)
      ensures forall i :: 0 <= i < |marks| ==>
                (marks[i] == Current <==> puzzleQueue[i].id !in solvedPuzzleIds && i == currentPuzzleIndex)
    {
      marks := [];
      for i := 0 to |puzzleQueue|
        invariant |marks| == i
        invariant forall j :: 0 <= j < i ==>
                    (marks[j] == Completed <==> puzzleQueue[j].id in solvedPuzzleIds)
        invariant forall j :: 0 <= j < i ==>
                    (marks[j] == Current <==> puzzleQueue[j].id !in solvedPuzzleIds && j == currentPuzzleIndex)
      {
        var mark := Plain;
        if puzzleQueue[i].id in solvedPuzzleIds {
          mark := Completed;
        } else if i == currentPuzzleIndex {
          mark := Current;
        }
        marks := marks + [mark];
      }
    }

    /** Moves to queue entry `index` when it exists; a navigation not made by the auto-advance
        marks the session as manually navigated. */
    method GoToPuzzle(index: int, isAuto: bool, now: int)
      requires Valid()
      modifies this`userManuallyNavigated, this`currentPuzzleIndex
      modifies this`puzzleStartTime, this`currentPuzzleId, this`puzzleSolution, this`currentMoveIndex
      modifies this`moves, this`isPlayerTurn, this`status
      ensures Valid()
      ensures !(0 <= index < |puzzleQueue|) ==> unchanged(this)
      ensures 0 <= index < |puzzleQueue| ==>
                && currentPuzzleIndex == index
                && userManuallyNavigated == (old(userManuallyNavigated) || !isAuto)
                && ShowsPuzzle(puzzleQueue[index], now)
    {
      if index < 0 || index >= |puzzleQueue| {
        return;
      }
      if !isAuto {
        userManuallyNavigated := true;
      }
      currentPuzzleIndex := index;
      RenderCurrentPuzzle(now);
    }

    /** Puts the current queue entry on the board with its solution and the player to move. */
    method RenderCurrentPuzzle(now: int)
      requires Valid()
      modifies this`puzzleStartTime, this`currentPuzzleId, this`puzzleSolution, this`currentMoveIndex
      modifies this`moves, this`isPlayerTurn, this`status
      ensures Valid()
      ensures currentPuzzleIndex < |puzzleQueue| ==> ShowsPuzzle(puzzleQueue[currentPuzzleIndex], now)
      ensures currentPuzzleIndex >= |puzzleQueue| ==> unchanged(this)
    {
      if currentPuzzleIndex >= |puzzleQueue| {
        return;
      }
      var puzzle := puzzleQueue[currentPuzzleIndex];
      puzzleStartTime := now;
      currentPuzzleId := Some(puzzle.id);
      puzzleSolution := SolutionOf(puzzle);
      currentMoveIndex := 0;
      moves := [];
      isPlayerTurn := true;
      status := FindBestMove;
    }

    /** Whether the board lets a piece be picked up: the game is running, the piece belongs to
        the side to move and it is the player's turn. */
    predicate CanDrag(gameOver: bool, whiteToMove: bool, whitePiece: bool)
      reads this
      ensures CanDrag(gameOver, whiteToMove, whitePiece) ==> isPlayerTurn && !gameOver
      ensures CanDrag(gameOver, whiteToMove, whitePiece) ==> whiteToMove == whitePiece
    {
      !gameOver && whiteToMove == whitePiece && isPlayerTurn
    }

    /** The player drops a piece from `source` to `target`; `legal` is the rules engine's
        verdict. A legal move is kept only when it is the expected solution move. */
    method OnDrop(source: string, target: string, legal: bool) returns (r: DropResult, next: Timer)
      requires Valid()
      modifies this`currentMoveIndex, this`moves, this`isPlayerTurn, this`status
      ensures Valid()
      ensures !legal ==> r == Snapback && next == NoTimer && unchanged(this)
      ensures legal && !old(Expects(source + target)) ==>
                && r == Snapback && next == NoTimer && status == TryAgain
                && currentMoveIndex == old(currentMoveIndex) && moves == old(moves)
                && isPlayerTurn == old(isPlayerTurn)
      ensures legal && old(Expects(source + target)) ==>
                && r == Accepted && status == GoodMove
                && currentMoveIndex == old(currentMoveIndex) + 1
                && moves == old(moves) + [source + target]
                && (next == SolveTimer <==> currentMoveIndex == |puzzleSolution|)
                && (next == OpponentTimer <==> currentMoveIndex < |puzzleSolution|)
                && isPlayerTurn == (next == SolveTimer && old(isPlayerTurn))
      ensures next == OpponentTimer ==> forall g, w, p :: !CanDrag(g, w, p)
    {
      if !legal {
        return Snapback, NoTimer;
      }
      moves := moves + [source + target];
      var playedMove := source + target;
      if currentMoveIndex < |puzzleSolution| && puzzleSolution[currentMoveIndex] == playedMove {
        currentMoveIndex := currentMoveIndex + 1;
        status := GoodMove;
        if currentMoveIndex >= |puzzleSolution| {
          return Accepted, SolveTimer;
        }
        isPlayerTurn := false;
        r, next := Accepted, OpponentTimer;
      } else {
        moves := moves[..|moves| - 1];
        status := TryAgain;
        r, next := Snapback, NoTimer;
      }
    }

    /** The opponent's reply: the next solution move is played (kept on the board when the rules
        engine accepts it) and the player is to move again. */
    method MakeOpponentMove(legal: bool) returns (next: Timer)
      requires Valid()
      modifies this`currentMoveIndex, this`moves, this`isPlayerTurn
      ensures Valid()
      ensures old(currentMoveIndex) >= |puzzleSolution| ==> unchanged(this) && next == NoTimer
      ensures old(currentMoveIndex) < |puzzleSolution| ==>
                && currentMoveIndex == old(currentMoveIndex) + 1 && isPlayerTurn
                && moves == old(moves) + (if legal then [Squares(puzzleSolution[old(currentMoveIndex)]).0
                                                         + Squares(puzzleSolution[old(currentMoveIndex)]).1]
                                          else [])
                && (next == SolveTimer <==> currentMoveIndex == |puzzleSolution|)
                && (next == NoTimer <==> currentMoveIndex < |puzzleSolution|)
    {
      if currentMoveIndex >= |puzzleSolution| {
        return NoTimer;
      }
      var opponentMove := puzzleSolution[currentMoveIndex];
      var (from, to) := Squares(opponentMove);
      if legal {
        moves := moves + [from + to];
      }
      currentMoveIndex := currentMoveIndex + 1;
      isPlayerTurn := true;
      next := if currentMoveIndex >= |puzzleSolution| then SolveTimer else NoTimer;
    }

    /** Shows the squares of the expected move, recording that the current puzzle used a hint. */
    method ShowHint() returns (hint: Option<(string, string)>)
      requires Valid()
      modifies this`hintsUsed, this`status
      ensures Valid()
      ensures |puzzleSolution| == 0 || currentPuzzleIndex >= |puzzleQueue| ==>
                unchanged(this) && hint == None
      ensures |puzzleSolution| > 0 && currentPuzzleIndex < |puzzleQueue| ==>
                hintsUsed == old(hintsUsed) + {puzzleQueue[currentPuzzleIndex].id}
      ensures hint.Some? <==>
                && |puzzleSolution| > 0 && currentPuzzleIndex < |puzzleQueue|
                && currentMoveIndex < |puzzleSolution| && puzzleSolution[currentMoveIndex] != ""
      ensures hint.Some? ==> hint.value == Squares(puzzleSolution[currentMoveIndex])
      ensures hint.Some? ==> status == HintAt(hint.value.0, hint.value.1)
                             && StatusText(status) == "Hint: Move from " + hint.value.0 + " to " + hint.value.1
      ensures hint.None? ==> status == old(status)
    {
      if |puzzleSolution| == 0 || currentPuzzleIndex >= |puzzleQueue| {
        return None;
      }
      var puzzle := puzzleQueue[currentPuzzleIndex];
      hintsUsed := hintsUsed + {puzzle.id};
      if currentMoveIndex >= |puzzleSolution| || puzzleSolution[currentMoveIndex] == "" {
        return None;
      }
      var (from, to) := Squares(puzzleSolution[currentMoveIndex]);
      status := HintAt(from, to);
      hint := Some((from, to));
    }

    /** The solved handler: records the puzzle as solved and its solve time; for the daily
        puzzle, overwrites the daily record and updates the streak. Returns whether more
        training puzzles should be requested and the entry to auto-advance to, if any. */
    method OnPuzzleSolved(now: int) returns (prefetch: bool, advanceTo: Option<nat>)
      requires Valid()
      modifies local, this`status, this`solvedPuzzleIds, this`sessionPuzzles, this`userManuallyNavigated
      ensures Valid()
      ensures sessionPuzzles == old(sessionPuzzles) + [now - puzzleStartTime]
      ensures currentPuzzleIndex < |puzzleQueue| && puzzleQueue[currentPuzzleIndex].id != "" ==>
                solvedPuzzleIds == old(solvedPuzzleIds) + {puzzleQueue[currentPuzzleIndex].id}
      ensures !(currentPuzzleIndex < |puzzleQueue| && puzzleQueue[currentPuzzleIndex].id != "") ==>
                solvedPuzzleIds == old(solvedPuzzleIds)
      ensures currentPuzzleIndex < |puzzleQueue| && puzzleQueue[currentPuzzleIndex].isDaily ==>
                local.data == StreakRecord(SolvedRecord(old(local.data), puzzleQueue[currentPuzzleIndex], DayOf(now)), DayOf(now))
      ensures !(currentPuzzleIndex < |puzzleQueue| && puzzleQueue[currentPuzzleIndex].isDaily) ==>
                local.data == old(local.data)
      ensures prefetch <==> currentPuzzleIndex + 2 >= |puzzleQueue|
      ensures status == if prefetch then FetchingPuzzles else PuzzleSolved
      ensures advanceTo.Some? <==> !old(userManuallyNavigated) && currentPuzzleIndex + 1 < |puzzleQueue|
      ensures advanceTo.Some? ==> advanceTo.value == currentPuzzleIndex + 1
      ensures !userManuallyNavigated
    {
      status := PuzzleSolved;
      RecordSolve(now);
      RecordDailySolve(now);
      prefetch, advanceTo := ScheduleAfterSolve();
    }

    /** The end of the solved handler: asks for more puzzles when at most one is left after
        this one, and picks the next entry for the auto-advance unless the user navigated. */
    method ScheduleAfterSolve() returns (prefetch: bool, advanceTo: Option<nat>)
      requires status == PuzzleSolved
      modifies this`status, this`userManuallyNavigated
      ensures prefetch <==> currentPuzzleIndex + 2 >= |puzzleQueue|
      ensures status == if prefetch then FetchingPuzzles else PuzzleSolved
      ensures advanceTo.Some? <==> !old(userManuallyNavigated) && currentPuzzleIndex + 1 < |puzzleQueue|
      ensures advanceTo.Some? ==> advanceTo.value == currentPuzzleIndex + 1
      ensures !userManuallyNavigated
    {
      prefetch := currentPuzzleIndex >= |puzzleQueue| - 2;
      if prefetch {
        status := SolvedLoadingMore;
        // the fetch the caller starts now announces itself before its first request
        status := FetchingPuzzles;
      }
      var shouldAutoAdvance := !userManuallyNavigated;
      advanceTo := if currentPuzzleIndex < |puzzleQueue| - 1 && shouldAutoAdvance
                   then Some(currentPuzzleIndex + 1) else None;
      userManuallyNavigated := false;
    }

    /** The delayed auto-advance scheduled by `OnPuzzleSolved`. */
    method OnAutoAdvance(nextIndex: nat, now: int)
      requires Valid()
      modifies this`userManuallyNavigated, this`currentPuzzleIndex
      modifies this`puzzleStartTime, this`currentPuzzleId, this`puzzleSolution, this`currentMoveIndex
      modifies this`moves, this`isPlayerTurn, this`status
      ensures Valid()
      ensures !userManuallyNavigated
      ensures nextIndex < |puzzleQueue| ==>
                currentPuzzleIndex == nextIndex && ShowsPuzzle(puzzleQueue[nextIndex], now)
      ensures nextIndex >= |puzzleQueue| ==>
                && currentPuzzleIndex == old(currentPuzzleIndex) && currentMoveIndex == old(currentMoveIndex)
                && moves == old(moves) && status == old(status)
    {
      userManuallyNavigated := false;
      GoToPuzzle(nextIndex, true, now);
    }

    /** Marks the puzzle on the board as solved in this session and records its solve time. */
    method RecordSolve(now: int)
      modifies this`solvedPuzzleIds, this`sessionPuzzles
      ensures sessionPuzzles == old(sessionPuzzles) + [now - puzzleStartTime]
      ensures currentPuzzleIndex < |puzzleQueue| && puzzleQueue[currentPuzzleIndex].id != "" ==>
                solvedPuzzleIds == old(solvedPuzzleIds) + {puzzleQueue[currentPuzzleIndex].id}
      ensures !(currentPuzzleIndex < |puzzleQueue| && puzzleQueue[currentPuzzleIndex].id != "") ==>
                solvedPuzzleIds == old(solvedPuzzleIds)
    {
      if currentPuzzleIndex < |puzzleQueue| && puzzleQueue[currentPuzzleIndex].id != "" {
        solvedPuzzleIds := solvedPuzzleIds + {puzzleQueue[currentPuzzleIndex].id};
      }
      var solveTime := now - puzzleStartTime;
      sessionPuzzles := sessionPuzzles + [solveTime];
    }

    /** When the puzzle on the board is the daily one: the daily record, then the streak. */
    method RecordDailySolve(now: int)
      modifies local
      ensures currentPuzzleIndex < |puzzleQueue| && puzzleQueue[currentPuzzleIndex].isDaily ==>
                local.data == StreakRecord(SolvedRecord(old(local.data), puzzleQueue[currentPuzzleIndex], DayOf(now)), DayOf(now))
      ensures !(currentPuzzleIndex < |puzzleQueue| && puzzleQueue[currentPuzzleIndex].isDaily) ==>
                local.data == old(local.data)
    {
      if currentPuzzleIndex < |puzzleQueue| && puzzleQueue[currentPuzzleIndex].isDaily {
        MarkPuzzleAsSolved(now);
        UpdateStreak(now);
      }
    }

    /** Overwrites the daily record with the current puzzle and today's date. */
    method MarkPuzzleAsSolved(now: int)
      modifies local
      ensures currentPuzzleIndex < |puzzleQueue| ==>
                local.data == SolvedRecord(old(local.data), puzzleQueue[currentPuzzleIndex], DayOf(now))
      ensures currentPuzzleIndex >= |puzzleQueue| ==> local.data == old(local.data)
    {
      if currentPuzzleIndex < |puzzleQueue| && puzzleQueue[currentPuzzleIndex].id != "" {
        var today := DayOf(now);
        local.data := local.data[SolvedPuzzleId := Text(puzzleQueue[currentPuzzleIndex].id)]
                                [SolvedPuzzleDate := Day(today)];
      }
    }

    /** Updates the streak for a daily solve at `now`; the last active date becomes today. */
    method UpdateStreak(now: int)
      modifies local
      ensures local.data == StreakRecord(old(local.data), DayOf(now))
    {
      var today := DayOf(now);
      var yesterday := DayOf(now - MsPerDay);
      DayBefore(now);
      var stats := local.data;
      var streak := NumOrZero(stats, Streak);
      var lastActive := Lookup(stats, LastActiveDate);
      if lastActive == Some(Day(yesterday)) {
        streak := streak + 1;
      } else if lastActive != Some(Day(today)) {
        streak := 1;
      }
      local.data := stats[Streak := Num(streak)][LastActiveDate := Day(today)];
    }
  }

  // ---------------------------------------------------------------- timing of hide and show

  /** A switch from chess to video, then the removal timer that hiding chess started: the new
      video root is attached and visible at first, and the timer detaches it, while the old
      chess root stays in the page. */
  method SwitchThenRemoval(m: OverlayManager, now: int, daily: Fetch, training: Fetch)
    returns (removalScheduled: bool, visibleAfterSwitch: bool)
    requires m.Valid() && m.currentType == Some(Chess)
    modifies m, m.local
    ensures removalScheduled && visibleAfterSwitch
    ensures !m.host && m.currentType == None
    ensures m.strayRoots == old(m.strayRoots) + 1
  {
    removalScheduled := m.Show(Video, now, daily, training);
    visibleAfterSwitch := m.visible;
    m.OnHideTimer();
  }

  /** A start during the fade-out shows nothing: the overlay still has the type, so showing it
      again changes nothing, it stays invisible, and the removal timer then detaches it. */
  method ShowDuringFadeOut(m: OverlayManager, now: int, daily: Fetch, training: Fetch)
    returns (removalScheduled: bool, visibleAfterShow: bool)
    requires m.Valid() && m.currentType == Some(Chess)
    modifies m, m.local
    ensures removalScheduled && !visibleAfterShow
    ensures !m.host && m.currentType == None
    ensures m.strayRoots == old(m.strayRoots)
  {
    removalScheduled := m.Hide(now);
    var _ := m.Show(Chess, now, daily, training);
    visibleAfterShow := m.visible;
    m.OnHideTimer();
  }

  /** A drop names two squares, so the move it plays never equals a solution move that carries
      a promotion piece: such a puzzle cannot be solved past that move. */
  lemma PromotionNeverExpected(m: OverlayManager, source: string, target: string)
    requires |source| == 2 && |target| == 2
    requires m.currentMoveIndex < |m.puzzleSolution| && |m.puzzleSolution[m.currentMoveIndex]| == 5
    ensures !m.Expects(source + target)
  {
  }

  // ---------------------------------------------------------------- streaks and totals over time

  /** The local area after the daily puzzle is solved on each of `n` consecutive days from
      `start`. */
  function SolveDays(stored: StoreMap, start: int, n: nat): StoreMap
  {
    if n == 0 then stored else StreakRecord(SolveDays(stored, start, n - 1), start + n - 1)
  }

  /** Solving the daily puzzle on consecutive days, starting the day after the last active
      date, adds one to the streak per day. */
  lemma {:induction false} ConsecutiveDailySolves(stored: StoreMap, start: int, n: nat)
    requires Lookup(stored, LastActiveDate) == Some(Day(start - 1))
    ensures NumOrZero(SolveDays(stored, start, n), Streak) == NumOrZero(stored, Streak) + n
    ensures Lookup(SolveDays(stored, start, n), LastActiveDate) == Some(Day(start + n - 1))
  {
    if n > 0 {
      ConsecutiveDailySolves(stored, start, n - 1);
    }
  }

  /** A second daily solve on the same day leaves the streak and the last active date alone. */
  lemma SolveAgainSameDay(stored: StoreMap, today: int)
    ensures StreakRecord(StreakRecord(stored, today), today) == StreakRecord(stored, today)
  {
    var once := StreakRecord(stored, today);
    assert Lookup(once, LastActiveDate) == Some(Day(today));
  }

  /** After a day without a daily solve the streak starts again at 1. */
  lemma StreakRestartsAfterGap(stored: StoreMap, lastActive: int, today: int)
    requires Lookup(stored, LastActiveDate) == Some(Day(lastActive)) && lastActive < today - 1
    ensures NumOrZero(StreakRecord(stored, today), Streak) == 1
  {
  }

  /** The sum of the solved counts of a sequence of sessions. */
  function TotalCount(counts: seq<nat>): nat
  {
    if counts == [] then 0 else TotalCount(counts[..|counts| - 1]) + counts[|counts| - 1]
  }

  /** The local area after sessions with the given solved counts are saved one after the
      other, each lasting `elapsed[i]` ms. */
  function SaveSessions(stats: StoreMap, counts: seq<nat>, elapsed: seq<int>): StoreMap
    requires |counts| == |elapsed|
  {
    if counts == [] then stats
    else
      var last := |counts| - 1;
      SessionStatsUpdate(SaveSessions(stats, counts[..last], elapsed[..last]), counts[last], elapsed[last])
  }

  /** Over any number of saved sessions, the stored total grows by exactly the puzzles solved,
      and the session record is at least every session's count and is either the old record
      or one of them. */
  lemma {:induction false} SavedSessionsTotals(stats: StoreMap, counts: seq<nat>, elapsed: seq<int>)
    requires |counts| == |elapsed|
    ensures var r := SaveSessions(stats, counts, elapsed);
      && NumOrZero(r, TotalPuzzlesSolved) == NumOrZero(stats, TotalPuzzlesSolved) + TotalCount(counts)
      && NumOrZero(r, MostPuzzlesInSession) >= NumOrZero(stats, MostPuzzlesInSession)
      && (forall i :: 0 <= i < |counts| && counts[i] > 0 ==> NumOrZero(r, MostPuzzlesInSession) >= counts[i])
      && (NumOrZero(r, MostPuzzlesInSession) == NumOrZero(stats, MostPuzzlesInSession)
          || exists i :: 0 <= i < |counts| && NumOrZero(r, MostPuzzlesInSession) == counts[i])
  {
    if counts != [] {
      var last := |counts| - 1;
      var prev := SaveSessions(stats, counts[..last], elapsed[..last]);
      SavedSessionsTotals(stats, counts[..last], elapsed[..last]);
      var r := SessionStatsUpdate(prev, counts[last], elapsed[last]);
      assert forall i :: 0 <= i < last ==> counts[..last][i] == counts[i];
      if counts[last] > 0 {
        assert NumOrZero(r, MostPuzzlesInSession) == Max(NumOrZero(prev, MostPuzzlesInSession), counts[last]);
      }
    }
  }

  /** Hiding twice without solving in between saves the same session twice: its puzzles are
      counted twice in the stored total. */
  lemma RepeatedHideCountsTwice(stats: StoreMap, count: nat, e1: int, e2: int)
    requires count > 0
    ensures NumOrZero(SessionStatsUpdate(SessionStatsUpdate(stats, count, e1), count, e2), TotalPuzzlesSolved)
            == NumOrZero(stats, TotalPuzzlesSolved) + 2 * count
  {
  }
}

=== FILE: storage.dfy ===
/** The browser storage areas the extension reads and writes, the values it keeps in them,
    and the calendar days it stamps them with. */
module Storage {

  datatype Option<+T> = None | Some(value: T)

  function GetOr<T>(o: Option<T>, default: T): T
  {
    match o
    case Some(v) => v
    case None => default
  }

  /** A stored value: a setting (boolean), a counter (number), a date (an ISO `YYYY-MM-DD`
      string, kept here as the number of its UTC day) or a puzzle id (text). */
  datatype Value = Bool(b: bool) | Num(n: int) | Day(day: int) | Text(text: string)

  /** The storage keys the extension uses; `KeyName` gives the string each is stored under. */
  datatype Key =
    | ChessEnabled | VideoEnabled                                   // synced settings area
    | SolvedPuzzleId | SolvedPuzzleDate                             // local area: the daily record
    | Streak | LastActiveDate | LastVideoDate                       // local area: streaks
    | MostPuzzlesInSession | TotalPuzzlesSolved | TotalTimeSpent   // local area: statistics

  function KeyName(k: Key): string
  {
    match k
    case ChessEnabled => "chessEnabled"
    case VideoEnabled => "videoEnabled"
    case SolvedPuzzleId => "solvedPuzzleId"
    case SolvedPuzzleDate => "solvedPuzzleDate"
    case Streak => "streak"
    case LastActiveDate => "lastActiveDate"
    case LastVideoDate => "lastVideoDate"
    case MostPuzzlesInSession => "mostPuzzlesInSession"
    case TotalPuzzlesSolved => "totalPuzzlesSolved"
    case TotalTimeSpent => "totalTimeSpent"
  }

  /** Distinct keys are stored under distinct names, so a map over `Key` is a faithful view of
      a storage area. */
  lemma KeyNamesDistinct(a: Key, b: Key)
    requires a != b
    ensures KeyName(a) != KeyName(b)
  {
  }

  /** The contents of one storage area; a key that is absent reads as `undefined`. */
  type StoreMap = map<Key, Value>

  function Lookup(m: StoreMap, key: Key): Option<Value>
  {
    if key in m then Some(m[key]) else None
  }

  /** JavaScript truthiness of a value read from storage (`undefined` is falsy). */
  predicate Truthy(v: Option<Value>)
    ensures v == None ==> !Truthy(v)
    ensures v.Some? && v.value.Bool? ==> (Truthy(v) <==> v.value.b)
  {
    match v
    case None => false
    case Some(Bool(b)) => b
    case Some(Num(n)) => n != 0
    case Some(Day(_)) => true
    case Some(Text(s)) => s != ""
  }

  /** `stats[key] || 0` for a counter key (the extension only ever writes numbers there). */
  function NumOrZero(m: StoreMap, key: Key): (r: int)
    ensures key !in m ==> r == 0
    ensures key in m && m[key].Num? ==> r == m[key].n
  {
    match Lookup(m, key)
    case Some(Num(n)) => n
    case _ => 0
  }

  /** One storage area; several components may hold the same one. */
  class Store {
    var data: StoreMap

    constructor (initial: StoreMap)
      ensures data == initial
    {
      data := initial;
    }
  }

  const MsPerDay: int := 86400000

  /** The UTC calendar day of a millisecond timestamp, the day that `toISOString()` names. */
  function DayOf(ms: int): (d: int)
    ensures d * MsPerDay <= ms < d * MsPerDay + MsPerDay
  {
    ms / MsPerDay
  }

  /** The date string of `Date.now() - 86400000` is the day before that of `Date.now()`. */
  lemma DayBefore(ms: int)
    ensures DayOf(ms - MsPerDay) == DayOf(ms) - 1
  {
  }
}
